=== FILE: README.md ===
# k2think2api worker: a Dafny model

This project models the request and response logic of the k2think2api
Cloudflare worker (`worker.js`). The worker is a proxy in front of the K2 Think
guest chat-completion API and exposes two endpoints:

- a raw passthrough, which forwards the caller's body with the model name
  rewritten;
- an OpenAI-compatible endpoint, which always asks the upstream for plain JSON.
  It splits the upstream's message into reasoning (`<think>…</think>`) and
  answer (`<answer>…</answer>`), optionally flattens the answer onto one line,
  and replies either with a `chat.completion` object or with a synthesized
  event stream: 400-character slices framed as `chat.completion.chunk`
  objects.

It also models the model list, the single-model lookup and the model-alias
rewrite.

The modules follow the worker's parts:

- `Js` (`js.dfy`): the JavaScript built-ins the worker relies on. These are
  JSON values, truthiness, property reads that may be `undefined`, `String()`,
  `trim()` over the ECMAScript white-space set, ASCII `toLowerCase()` and
  `join`.
- `Tags` (`tags.dfy`): `splitThinkAnswer` and the regular-expression match it
  uses.
- `Sanitize` (`sanitize.dfy`): `sanitizeContent`, the replacement of every run
  of CR/LF by one space.
- `Slices` (`chunks.dfy`): `chunkString`, as a method with a loop, proved
  against the function `Chunks`.
- `Options` (`options.dfy`): `wantFlat` and the chunk-delay clamp.
- `Models` (`models.dfy`): the alias rewrite, the model object, the model
  list and the model lookup.
- `Stream` (`stream.dfy`): the frames the stream's `start` callback sends,
  as a method with loops proved against the function `StreamFrames`.
- `Completions` (`completions.dfy`): `proxyCompletions` up to its fetch, and
  `openaiCompletions` end to end.
- `Api` (`api.dfy`): the OpenAI-style error object.

The network call, the clock, the random id and `Number()` are parameters of
the model. `upstreamFor` maps the body sent upstream to the upstream's
reply; `created` is the time in seconds; `randomHex` is the output of
`cryptoRandomId`.

`String.prototype.match` with `/<think>([\s\S]*?)<\/think>/i` is modelled as
follows: find the first opener, ignoring ASCII case; if a closer follows it,
take the nearest such closer. `Tags.FirstMatchCorrect` proves this equal to
the regular expression's leftmost, shortest match. It finds nothing exactly
when the pattern matches nowhere.

Behaviour of `worker.js` worth noting:

- The OpenAI endpoint removes `stream` from the body sent upstream only when
  it is `true`. Any other `stream` value is passed on.
- A request body that is JSON `null` is answered with 400 "Invalid JSON body".
  Reading `payload.stream` throws inside the same `try`.
- An upstream reply of JSON `null` makes the non-stream path throw at
  `upstreamJSON.system_fingerprint`. The model represents this as the reply
  `Thrown`. The stream path does not throw; it sends only the role frame,
  the stop frame and `[DONE]`.
- Flattening is not asked for by an empty query parameter alone. An empty
  value counts only when the matching `x-` header has some value, because
  the first operand of the test requires a non-empty value.
- The single-model lookup does not trim the id. It matches the canonical id
  case-sensitively; only the aliases match in any letter case.

## Model

| member | source | states |
|---|---|---|
| Js.Trim | worker.js:92-101 | `trim()` leaves no white space at either end, and its result is a contiguous piece of the input |
| Js.TrimDropsOnlySpace | worker.js:92-101 | everything `trim()` removes, before and after the result, is white space |
| Js.TrimIdentity | worker.js:92-101 | `trim()` changes a string exactly when it has white space at one of its ends |
| Js.Prop | worker.js:217-239 | a property read finds a value exactly when the value is an object that has the key, and the value found is that key's field; otherwise it is `undefined` |
| Js.StringOfTruthy | worker.js:217 | `String()` of a truthy value that is not an array is never empty; an array of one element shows that element, with `null` shown as ""; `[]` is truthy yet shows as "", so an upstream id `[]` gives an empty id |
| Tags.FirstMatch | worker.js:89-90 | a reported match lies within the text, is at least as long as the two tags, and its capture is exactly the text between the opener and the closer |
| Tags.FindFrom | worker.js:89-90 | the search finds the first position at or after the start where the tag occurs, ignoring ASCII case, or reports that there is none |
| Tags.FirstMatchCorrect | worker.js:89-90 | the match is absent exactly when the pattern matches nowhere; otherwise it is the leftmost start with the shortest lazy capture |
| Tags.FirstMatchUnique | worker.js:89-90 | only one pair of positions is the leftmost, shortest match |
| Tags.FirstMatchIs | worker.js:89-90 | the match object reports the first match's index, its capture and its length |
| Tags.SplitThinkAnswer | worker.js:87-105 | the result's `raw` is the source text itself |
| Tags.AnswerBlockWins | worker.js:90-93 | with an answer block, the answer is the trimmed capture of the first one, and `hasTags` is set |
| Tags.ThinkIsFirstBlock | worker.js:89-92 | with a think block, the reasoning is the trimmed capture of the first one, and `hasTags` is set |
| Tags.NoThinkBlock | worker.js:91-92 | without a think block the reasoning is empty |
| Tags.ThinkOnlySalvages | worker.js:94-99 | with a think block but no answer block, the answer is the trimmed texts before and after the think block, joined by one newline, with an empty side left out |
| Tags.SalvageIsTrimmed | worker.js:99 | joining the two trimmed sides and trimming again equals joining them with a newline and omitting an empty side |
| Tags.NoTagsKeepsText | worker.js:100-104 | with neither block, the answer is the whole text trimmed, the reasoning is empty and `hasTags` is false |
| Tags.HasTagsIff | worker.js:104 | `hasTags` holds exactly when one of the two patterns matches somewhere |
| Tags.WellFormedReply | worker.js:87-105 | text of the form P`<think>`R`</think>`M`<answer>`A`</answer>`Q, with no `<` in P, R, M and A, splits into trim(R) and trim(A) with `hasTags` set |
| Tags.BlockIsFirstMatch | worker.js:89-90 | a block whose prefix holds no opener and whose capture holds no `<` is exactly the match reported |
| Sanitize.Flatten | worker.js:83 | the flattened text has no CR or LF and is no longer than the input |
| Sanitize.SanitizeContent | worker.js:81-85 | with the flag set, the result has no CR or LF; without it, the text is returned unchanged |
| Sanitize.FlattenIdentity | worker.js:83 | the replacement changes a text exactly when the text contains a CR or LF |
| Sanitize.FlattenIdempotent | worker.js:83 | flattening a flattened text changes nothing |
| Sanitize.FlattenAppend | worker.js:83 | two texts flatten separately when the first does not end in a line break |
| Sanitize.FlattenCollapsesRun | worker.js:83 | a maximal run of line breaks between two texts becomes exactly one space |
| Sanitize.FlattenExample | worker.js:83 | x CR LF y LF LF z becomes "x y z" |
| Slices.ChunksCover | worker.js:303-310 | joining the slices gives the text back; every slice is non-empty and at most `size` long, and all but the last are exactly `size` long |
| Slices.ChunkAt | worker.js:306-307 | the k-th slice is `str.slice(k*size, (k+1)*size)`, with its end clamped to the text's length |
| Slices.ChunkCount | worker.js:305-308 | an empty text gives no slices; otherwise the number of slices is the ceiling of length / size |
| Slices.ChunkString | worker.js:303-310 | the loop returns exactly the slices `Chunks` describes |
| Options.FlatKeyTable | worker.js:73-78 | one key asks for flattening exactly when its query value is "1", or its `x-` header is "1", or its query value is empty while the header has a value |
| Options.WantFlatTable | worker.js:73-79 | `wantFlat` (the predicate `Options.WantFlat`) holds exactly when one of `flat`, `strip_newlines` or `flat_content` asks for it |
| Options.NoFlatWithoutOne | worker.js:73-78 | query values and headers other than "1", with no empty query value beside a header, leave the answer as it is |
| Options.DelaySource | worker.js:248 | the delay text is the query's `chunk_delay_ms` when non-empty, else the `x-chunk-delay-ms` header when non-empty, else there is none and the expression falls through to the number 0; a text found is never empty |
| Options.ClampDelay | worker.js:249 | the delay lies in [0, 2000]; a value in range is kept, a larger one becomes 2000, and a negative or non-finite one becomes 0 |
| Options.DelayMs | worker.js:248-249 | `delayMs` lies in [0, 2000]; with no delay text it is 0, otherwise it is `Number()` of the text, clamped |
| Options.NoDelayAsked | worker.js:248-249 | with neither the query parameter nor the header, there is no pause between frames |
| Models.LowerAll | worker.js:118 | lower-casing the alias list keeps its length |
| Models.IsAliasIff | worker.js:118 | the predicate `Models.IsAlias`: a name is an alias exactly when its lower-case form equals the lower-case form of one of the four aliases |
| Models.RewriteModel | worker.js:116-121 | the rewrite keeps objects as objects, keeps their keys, and changes no field other than `model` |
| Models.RewriteIff | worker.js:161-166 | a body changes exactly when its `model` is a string other than the canonical id whose trimmed form is an alias in some letter case; it then names the canonical id |
| Models.RewriteIdempotent | worker.js:161-166 | rewriting a rewritten body changes nothing |
| Models.RewriteTrims | worker.js:162-164 | a body naming " k2" is sent upstream naming the canonical id |
| Models.RewriteOfAlias | worker.js:161-166 | a body holding only a padded alias other than the canonical id is rewritten to the canonical id |
| Models.ModelInfo | worker.js:16-25 | the model object has the canonical id and root, owner MBZUAI-IFM, object "model", the given creation time and no parent |
| Models.ListModels | worker.js:342-344 | the model list holds exactly one model, the model object with every field fixed: the canonical id and root, object "model", owner MBZUAI-IFM, the given creation time and no parent |
| Models.LookupIff | worker.js:345-351 | the lookup `Models.LookupModel` finds the model exactly for the canonical id or an alias in any letter case, and answers with the listed model object, `ModelInfo(created)`; anything else gets a 404 `model_not_found` |
| Models.NotAliasByLength | worker.js:347 | a name whose length no alias has is not an alias |
| Models.AliasIsAlias | worker.js:347 | each alias as written is recognised |
| Models.LookupDoesNotTrim | worker.js:346-350 | " k2" is not found |
| Models.LookupIdIsCaseSensitive | worker.js:347 | the canonical id in lower case is not found |
| Stream.EmitFrames | worker.js:250-296 | the `start` callback's loops send exactly `StreamFrames`: the role frame, the reasoning slices, the content slices, the stop frame and `[DONE]` |
| Stream.PieceFramesCarry | worker.js:265-289 | the frames made from the slices carry the slices back, in order, in deltas of one kind only |
| Stream.PieceFramesShape | worker.js:265-289 | every frame made from a slice is a data frame of this reply, with no finish reason and a non-empty slice |
| Stream.PieceFramesCount | worker.js:265-289 | when no slice is empty, every slice gets a frame |
| Stream.StreamCarriesTexts | worker.js:250-296 | the reasoning deltas join to the reasoning, and the content deltas join to the answer |
| Stream.PieceFramesAt | worker.js:265-289 | when no slice is empty, the k-th frame made from the slices carries the k-th slice |
| Stream.StreamPositions | worker.js:255-293 | frame by frame: frame 0 is the role frame; the next ceil(\|think\|/400) frames carry the slices of the reasoning in order; the next ceil(\|answer\|/400) frames carry the slices of the answer in order; then come the stop frame and `[DONE]` |
| Stream.StreamCount | worker.js:255-293 | the stream has 3 + ceil(\|think\|/400) + ceil(\|answer\|/400) frames, lengths counted in characters, with the role frame first and the stop frame and `[DONE]` last |
| Stream.StreamSameReply | worker.js:255-292 | every frame but `[DONE]` has this reply's id, creation time and model; only the stop frame has a finish reason |
| Stream.StreamOrder | worker.js:263-289 | every reasoning delta comes before every content delta |
| Stream.SlicesAreBounded | worker.js:265-289 | every delta carries a non-empty slice of at most 400 characters |
| Completions.ProxyRequest | worker.js:108-125 | the raw passthrough asks for an event stream exactly when the body is JSON with `stream: true`; a JSON body is forwarded rewritten, and text that is not JSON is forwarded as it is |
| Completions.Delete | worker.js:173-175 | `delete` removes exactly the key from an object and leaves every other field |
| Completions.PrepareRequest | worker.js:155-175 | a body that is not JSON, or is `null`, gets 400 `invalid_request_error`; otherwise a stream is wanted exactly when `stream` is `true`, and the body sent upstream is the body with its model rewritten, with `stream` also removed when a stream is wanted |
| Completions.UpstreamBody | worker.js:156-175 | the body sent upstream never has `stream: true`; on both paths its model is rewritten; apart from `stream` and `model` it is the caller's body |
| Completions.StreamRequestRewritten | worker.js:156-175 | `{"model": "k2", "stream": true}` is sent upstream as `{"model": "MBZUAI-IFM/K2-Think"}` |
| Completions.AliasStreamBodyRewritten | worker.js:161-175 | a streamed body naming only an alias is sent upstream naming only the canonical id |
| Completions.AliasRequestPrepared | worker.js:155-175 | a body naming only an alias is forwarded without a stream, naming the canonical id |
| Completions.UpstreamErrorMessage | worker.js:200-204 | the failure message is `String(detail)` when `detail` is truthy, else `String(message)` when `message` is truthy, else the raw upstream text |
| Completions.ResponseId | worker.js:217 | the id is `String()` of the upstream's id when that is truthy, so a non-empty string id is kept as it is; otherwise it is "chatcmpl_" followed by the random hex |
| Completions.NonStringIds | worker.js:217 | a numeric upstream id 7 gives the id "7"; an id `[]` is truthy but gives the empty id |
| Completions.RawContent | worker.js:219 | a reply without truthy `choices`, or whose first choice is missing or falsy, or whose first choice's message content is missing or falsy, gives the empty text; truthy content gives `String()` of it, and string content gives that content |
| Completions.RawContentOfFirstChoice | worker.js:219 | the content is taken from the first choice's message, and a reply with no choices gives the empty text |
| Completions.Respond | worker.js:197-293 | a failed upstream status is passed on as an `upstream_error`; a successful reply that is not JSON gets 502 "Invalid upstream JSON"; otherwise the handler throws exactly when no stream is wanted and the reply is `null`, answers with a completion object when no stream is wanted and the reply is not `null`, and streams exactly when a stream is wanted, with `delayMs` as the delay |
| Completions.OpenAICompletions | worker.js:152-300 | the endpoint answers 400 exactly when the body is not JSON or is `null`, or when the upstream itself answered 400; 502 "Invalid upstream JSON" exactly for a successful upstream reply that is not JSON (or an upstream 502 carrying that message); it fails exactly when the body is rejected, the upstream fails or its reply is not JSON; a rejected body is answered with the rejection itself, and a forwarded body with exactly `Respond`'s reply to the upstream's answer to the body sent |
| Completions.BadJsonAnswered | worker.js:157-168 | a body that is not JSON is answered with 400 `invalid_request_error` "Invalid JSON body", whatever the upstream |
| Completions.ThinkAnswerEndToEnd | worker.js:152-241 | a request for `k2` whose upstream message is "`<think>`R`</think><answer>`A`</answer>`" gets reasoning trim(R) and content trim(A) under the upstream's id |
| Completions.AliasThinkAnswer | worker.js:152-241 | the same for a request naming any alias other than the canonical id |
| Completions.UpstreamFailurePassedOn | worker.js:198-206 | a failed upstream reply is passed on with its status, as an `upstream_error` whose code is that status |
| Completions.RateLimitedExample | worker.js:198-206 | an upstream 500 with `{"detail": "rate limited"}` becomes status 500 with message "rate limited" |
| Completions.ModesAgree | worker.js:215-296 | for the same upstream reply, the stream is exactly `StreamFrames` of the plain reply's id, creation time, model, reasoning and content, so it carries the plain reply's texts, and the delay is within [0, 2000] |
| Completions.NullUpstream | worker.js:217-240 | an upstream `null` makes the non-stream path throw; the stream path sends three frames and no text |
| Completions.PlainReply | worker.js:214-241 | a successful upstream reply that is not null gives the completion object built from the split and sanitized content |
| Completions.ThinkAnswerReply | worker.js:214-241 | an upstream message "`<think>`R`</think><answer>`A`</answer>`" is answered with reasoning trim(R) and content trim(A), under the upstream's id |

## Left out

- The `fetch` calls, their spoofed browser headers and `redirect: 'manual'`: the upstream is the parameter `upstreamFor`.
- `withCors`, `corsHeaders`, `sseHeaders`, `json()` and `isPreflight`: header plumbing.
- `JSON.parse`/`JSON.stringify` as text: bodies are JSON values, and a parse failure is `None`. Numbers are integers.
- The route dispatch in the default `fetch`, the health and root documents, and URL parsing. `decodeURIComponent` is applied before the lookup, so the lookup takes the decoded id.
- `ReadableStream`, `TextEncoder`, the SSE text framing `data: …\n\n` and `controller.close()`: the stream is the sequence of frames it sends.
- The `setTimeout` pauses between frames: the model computes the delay but not the pauses.
- `cryptoRandomId` and `Date.now()`: the parameters `randomHex` and `created`.
- `Number()` on the delay text: the parameter `number`, with `None` for a non-finite result. Fractional delays are not modelled.
- `toLowerCase()` folds only ASCII letters here. Non-ASCII letters, such as the Kelvin sign, are not folded.
- Headers are keyed by their lower-case names; the case-insensitivity of header lookup is not modelled.
- Query parameters map a name to its first value.
- `sanitizeContent` with `null` or a non-string argument: the worker calls it only with the answer string.
- Slices.ChunkString: lengths and slices are counted in Unicode scalar values, while the worker's `length` and `slice` count UTF-16 code units and can split a surrogate pair. For text outside the Basic Multilingual Plane the slice boundaries, the 400-character bound of `Stream.SlicesAreBounded` and the frame count of `Stream.StreamCount` and `Stream.StreamPositions` therefore differ from the worker's.
- Slices.ChunkString: requires a positive size. The worker calls it only with 400, and a size of 0 would never end the loop.
- The ids and contents of the completion and the chunk objects are modelled, but the constant fields (`object`, `index`, `role`, and the completion choice's `finish_reason: 'stop'`) are not.

=== FILE: api.dfy ===
/** The OpenAI-style error object the worker answers with: the body
    { error: { message, type, param?, code? } } and the HTTP status. */
module Api {
  import opened Js

  datatype ApiError = ApiError(message: string, kind: string, param: Option<string>, code: Option<Json>)

  /** An error response: its HTTP status and its error object. */
  datatype ErrorResponse = ErrorResponse(status: int, error: ApiError)
}

=== FILE: chunks.dfy ===
/** chunkString: cutting a text into consecutive slices of a fixed size, the
    last one possibly shorter. An empty text gives no slices at all. */
module Slices {
  import opened Js

  function Min(a: int, b: int): int {
    if a <= b then a else b
  }

  /** The slices of `s`, front to back. */
  function Chunks(s: string, size: nat): (r: seq<string>)
    requires size > 0
    decreases |s|
  {
    if s == [] then []
    else if |s| <= size then [s]
    else [s[..size]] + Chunks(s[size..], size)
  }

  /** Joining the slices gives the text back; every slice is non-empty and
      at most `size` long, and every slice but the last is exactly `size`
      long. */
  lemma {:induction false} ChunksCover(s: string, size: nat)
    requires size > 0
    ensures Concat(Chunks(s, size)) == s
    ensures forall k :: 0 <= k < |Chunks(s, size)| ==> 0 < |Chunks(s, size)[k]| <= size
    ensures forall k :: 0 <= k && k + 1 < |Chunks(s, size)| ==> |Chunks(s, size)[k]| == size
    decreases |s|
  {
    if |s| > size {
      var rest := Chunks(s[size..], size);
      ChunksCover(s[size..], size);
      assert Chunks(s, size) == [s[..size]] + rest;
      assert Concat([s[..size]] + rest) == s[..size] + Concat(rest);
      assert s[..size] + s[size..] == s;
    }
  }

  /** The k-th slice is s.slice(k * size, (k + 1) * size): the loop's slice
      with its end clamped to the length of the text. */
  lemma {:induction false} ChunkAt(s: string, size: nat, k: nat)
    requires size > 0 && k < |Chunks(s, size)|
    ensures k * size < |s|
    ensures Chunks(s, size)[k] == s[k * size..Min((k + 1) * size, |s|)]
    decreases k
  {
    if k > 0 {
      var t := s[size..];
      ChunkAt(t, size, k - 1);
      assert (k - 1) * size + size == k * size;
      assert k * size + size == (k + 1) * size;
      assert t[(k - 1) * size..Min(k * size, |t|)] == s[k * size..Min((k + 1) * size, |s|)];
    }
  }

  /** There are ceil(|s| / size) slices: none for the empty text, else the
      fewest slices of `size` characters that cover it. */
  lemma {:induction false} ChunkCount(s: string, size: nat)
    requires size > 0
    ensures Chunks(s, size) == [] <==> s == []
    ensures s != [] ==> (|Chunks(s, size)| - 1) * size < |s| <= |Chunks(s, size)| * size
    decreases |s|
  {
    if |s| > size {
      var n := |Chunks(s[size..], size)|;
      ChunkCount(s[size..], size);
      assert (n + 1) * size == n * size + size;
      assert n * size == (n - 1) * size + size;
    }
  }

  /** chunkString(str, size): the loop over i = 0, size, 2 * size, ... that
      collects str.slice(i, i + size). */
  method ChunkString(s: string, size: nat) returns (out: seq<string>)
    requires size > 0
    ensures out == Chunks(s, size)
  {
    out := [];
    if s == [] {
      return;
    }
    var i := 0;
    while i < |s|
      invariant 0 <= i <= |s| + size
      invariant out + Chunks(s[Min(i, |s|)..], size) == Chunks(s, size)
      decreases |s| - i
    {
      var piece := s[i..Min(i + size, |s|)];
      var tail := s[i..];
      if |tail| <= size {
        assert piece == tail;
        assert s[Min(i + size, |s|)..] == [];
      } else {
        assert tail[..size] == piece;
        assert tail[size..] == s[Min(i + size, |s|)..];
      }
      assert Chunks(tail, size) == [piece] + Chunks(s[Min(i + size, |s|)..], size);
      out := out + [piece];
      i := i + size;
    }
  }
}

=== FILE: completions.dfy ===
/** The two completion endpoints. The raw passthrough forwards the caller's
    body with the model rewritten. The OpenAI-compatible endpoint always
    asks the upstream for plain JSON and answers either with a completion
    object or with a synthesized stream. The network call is the parameter
    `upstreamFor`, which maps the body sent upstream to the upstream's
    reply; the clock and the random id are parameters as well. */
module Completions {
  import opened Js
  import opened Api
  import opened Tags
  import opened Sanitize
  import opened Models
  import opened Options
  import opened Stream

  const EVENT_STREAM: string := "text/event-stream"
  const APPLICATION_JSON: string := "application/json"
  const ID_PREFIX: string := "chatcmpl_"

  /** The upstream's reply: HTTP status, body text, and the body parsed as
      JSON (None when it is not JSON). */
  datatype Upstream = Upstream(status: int, text: string, json: Option<Json>)

  /** The caller's request. `body` is JSON.parse(bodyText || '{}'), None when
      that throws; `query` maps a parameter to its first value; `headers`
      are keyed by lower-case name. */
  datatype Request = Request(body: Option<Json>, query: map<string, string>, headers: map<string, string>)

  /** What the raw passthrough sends upstream: the accept header and the
      body, re-serialized from `body`, or the caller's text unchanged when
      `body` is None. */
  datatype RawForward = RawForward(accept: string, body: Option<Json>)

  /** proxyCompletions, up to the fetch. */
  function ProxyRequest(parsed: Option<Json>): (r: RawForward)
    ensures r.accept == EVENT_STREAM <==> parsed.Some? && Prop(parsed.value, "stream") == Some(JBool(true))
    ensures r.accept == EVENT_STREAM || r.accept == APPLICATION_JSON
    ensures r.body.None? <==> parsed.None?
    ensures parsed.Some? ==> r.body == Some(RewriteModel(parsed.value))
  {
    match parsed
    case None => RawForward(APPLICATION_JSON, None)
    case Some(j) =>
      var accept := if Truthy(j) && Prop(j, "stream") == Some(JBool(true)) then EVENT_STREAM else APPLICATION_JSON;
      RawForward(accept, Some(if Truthy(j) then RewriteModel(j) else j))
  }

  /** The body of the OpenAI-compatible request after its checks. */
  datatype Prepared =
    | Rejected(response: ErrorResponse)
    | Forward(payload: Json, wantsStream: bool)

  /** `delete v[key]` on an object; anything else is left as it is. */
  function Delete(v: Json, key: string): (r: Json)
    ensures r.JObj? ==> key !in r.fields
    ensures v.JObj? ==>
      (r.JObj? && r.fields.Keys == v.fields.Keys - {key} && forall k :: k in r.fields ==> r.fields[k] == v.fields[k])
  {
    if v.JObj? then JObj(v.fields - {key}) else v
  }

  /** Parsing, the stream flag, the model rewrite, and the removal of
      `stream: true` from the body sent upstream. A body that is not JSON,
      or is JSON null (reading `payload.stream` throws inside the same
      try), is answered with 400 invalid_request_error. */
  function PrepareRequest(body: Option<Json>): (r: Prepared)
    ensures r.Rejected? <==> body.None? || body == Some(JNull)
    ensures r.Rejected? ==> r.response.status == 400 && r.response.error.kind == "invalid_request_error"
    ensures r.Forward? ==> (r.wantsStream <==> Prop(body.value, "stream") == Some(JBool(true)))
    ensures r.Forward? && r.wantsStream ==> r.payload == Delete(RewriteModel(body.value), "stream")
    ensures r.Forward? && !r.wantsStream ==> r.payload == RewriteModel(body.value)
  {
    if body.None? || body.value.JNull? then
      Rejected(ErrorResponse(400, ApiError("Invalid JSON body", "invalid_request_error", None, None)))
    else
      var payload := body.value;
      var wantsStream := Prop(payload, "stream") == Some(JBool(true));
      var rewritten := RewriteModel(payload);
      Forward(if wantsStream then Delete(rewritten, "stream") else rewritten, wantsStream)
  }

  /** The body sent upstream never asks for a stream with `stream: true`;
      apart from that and the model rewrite it is the caller's body: a
      `stream` value other than true is passed on. */
  lemma UpstreamBody(body: Json)
    requires !body.JNull?
    ensures var r := PrepareRequest(Some(body));
      && r.Forward?
      && Prop(r.payload, "stream") != Some(JBool(true))
      && (r.wantsStream ==> r.payload.JObj? && r.payload.fields.Keys == body.fields.Keys - {"stream"})
      && (!r.wantsStream ==> r.payload == RewriteModel(body))
      && (r.wantsStream ==> r.payload == Delete(RewriteModel(body), "stream"))
      && (r.payload.JObj? ==> forall k :: k in r.payload.fields && k != "model" ==> r.payload.fields[k] == body.fields[k])
  {
  }

  /** A streamed request naming the alias "k2" is sent upstream naming the
      canonical id, with `stream` removed. */
  lemma StreamRequestRewritten()
    ensures PrepareRequest(Some(JObj(map["model" := JStr("k2"), "stream" := JBool(true)])))
      == Forward(JObj(map["model" := JStr(MODEL_ID)]), true)
  {
    var body := JObj(map["model" := JStr("k2"), "stream" := JBool(true)]);
    var r := PrepareRequest(Some(body));
    assert Prop(body, "stream") == Some(JBool(true));
    assert r.Forward? && r.wantsStream;
    K2IsAlias();
    AliasStreamBodyRewritten("k2", JBool(true));
    assert r.payload == Delete(RewriteModel(body), "stream");
    assert r.payload == JObj(map["model" := JStr(MODEL_ID)]);
  }

  /** A streamed body holding an aliased model name is sent upstream as the
      canonical id alone. */
  lemma AliasStreamBodyRewritten(m: string, v: Json)
    requires m != MODEL_ID && IsAlias(Trim(m))
    ensures Delete(RewriteModel(JObj(map["model" := JStr(m), "stream" := v])), "stream")
      == JObj(map["model" := JStr(MODEL_ID)])
  {
    var fields := map["model" := JStr(m), "stream" := v];
    var sent := fields["model" := JStr(MODEL_ID)];
    assert "model" != "stream" by {
      assert "model"[0] != "stream"[0];
    }
    assert NamesAlias(JObj(fields));
    assert RewriteModel(JObj(fields)) == JObj(sent);
    DropOtherKey("model", "stream", JStr(m), v, JStr(MODEL_ID));
  }

  /** Replacing one field of a two-field object and dropping the other
      leaves the replaced field alone. */
  lemma DropOtherKey(a: string, b: string, x: Json, y: Json, z: Json)
    requires a != b
    ensures map[a := x, b := y][a := z] - {b} == map[a := z]
  {
    var r := map[a := x, b := y][a := z] - {b};
    assert r.Keys == {a};
  }

  /** The message of an upstream failure: errobj.detail || errobj.message ||
      the raw text, as a string. A body that is not a JSON object, or is
      null (the property read throws and is caught), leaves the raw text. */
  function UpstreamErrorMessage(text: string, parsed: Option<Json>): (r: string)
    ensures !(parsed.Some? && (TruthyOpt(Prop(parsed.value, "detail")) || TruthyOpt(Prop(parsed.value, "message"))))
      ==> r == text
    ensures (parsed.Some? && Prop(parsed.value, "detail").Some? && Prop(parsed.value, "detail").value.JStr?
             && Prop(parsed.value, "detail").value.s != "") ==> r == Prop(parsed.value, "detail").value.s
    ensures parsed.Some? && TruthyOpt(Prop(parsed.value, "detail"))
      ==> r == ToJsString(Prop(parsed.value, "detail").value)
    ensures parsed.Some? && !TruthyOpt(Prop(parsed.value, "detail")) && TruthyOpt(Prop(parsed.value, "message"))
      ==> r == ToJsString(Prop(parsed.value, "message").value)
  {
    if parsed.Some? && parsed.value.JObj? then
      var detail := Prop(parsed.value, "detail");
      var message := Prop(parsed.value, "message");
      if TruthyOpt(detail) then ToJsString(detail.value)
      else if TruthyOpt(message) then ToJsString(message.value)
      else text
    else text
  }

  /** upstreamResp.ok. */
  predicate IsOk(status: int) {
    200 <= status <= 299
  }

  /** The completion id: the upstream's id when it has a truthy one, else
      "chatcmpl_" followed by the random hex string. */
  function ResponseId(u: Json, randomHex: string): (r: string)
    ensures !TruthyOpt(Prop(u, "id")) ==> r == ID_PREFIX + randomHex
    ensures Prop(u, "id").Some? && Prop(u, "id").value.JStr? && Prop(u, "id").value.s != ""
      ==> r == Prop(u, "id").value.s
    ensures TruthyOpt(Prop(u, "id")) ==> r == ToJsString(Prop(u, "id").value)
  {
    if Truthy(u) && TruthyOpt(Prop(u, "id")) then ToJsString(Prop(u, "id").value)
    else ID_PREFIX + randomHex
  }

  /** Ids that are not strings go through String(): a numeric id 7 gives
      "7", and an id [] is truthy but gives the empty id. */
  lemma NonStringIds(randomHex: string)
    ensures ResponseId(JObj(map["id" := JNum(7)]), randomHex) == "7"
    ensures ResponseId(JObj(map["id" := JArr([])]), randomHex) == ""
  {
    assert ToJsString(JNum(7)) == "7" by {
      assert NatString(7) == [Digit(7)];
    }
    StringOfTruthy(JArr([]), JNull);
  }

  /** The text handed to splitThinkAnswer:
      String((((u || {}).choices || [])[0] || {}).message?.content || ''). */
  function RawContent(u: Json): (r: string)
    ensures !TruthyOpt(Prop(u, "choices")) ==> r == ""
    ensures var choices := Prop(u, "choices");
      choices.Some? && choices.value.JArr? && |choices.value.items| > 0
        && Prop(choices.value.items[0], "message").Some?
        && Prop(Prop(choices.value.items[0], "message").value, "content").Some?
        && Prop(Prop(choices.value.items[0], "message").value, "content").value.JStr?
      ==> r == Prop(Prop(choices.value.items[0], "message").value, "content").value.s
    ensures var choices := Prop(u, "choices");
      TruthyOpt(choices) && !TruthyOpt(Index0(choices.value)) ==> r == ""
    ensures var choices := Prop(u, "choices");
      TruthyOpt(choices) && TruthyOpt(Index0(choices.value))
        && !(Prop(Index0(choices.value).value, "message").Some?
             && TruthyOpt(Prop(Prop(Index0(choices.value).value, "message").value, "content")))
      ==> r == ""
    ensures var choices := Prop(u, "choices");
      TruthyOpt(choices) && TruthyOpt(Index0(choices.value))
        && Prop(Index0(choices.value).value, "message").Some?
        && TruthyOpt(Prop(Prop(Index0(choices.value).value, "message").value, "content"))
      ==> r == ToJsString(Prop(Prop(Index0(choices.value).value, "message").value, "content").value)
  {
    var base := if Truthy(u) then u else JObj(map[]);
    var choices := Prop(base, "choices");
    var list := if TruthyOpt(choices) then choices.value else JArr([]);
    var first := Index0(list);
    var choice := if TruthyOpt(first) then first.value else JObj(map[]);
    var message := Prop(choice, "message");
    var content := if message.Some? && !message.value.JNull? then Prop(message.value, "content") else None;
    if TruthyOpt(content) then ToJsString(content.value) else ""
  }

  /** The usual upstream shape gives its first choice's message content;
      a reply with no choices gives the empty text. */
  lemma RawContentOfFirstChoice(u: Json, c: string, rest: seq<Json>)
    requires u.JObj? && "choices" in u.fields
    ensures u.fields["choices"] == JArr([JObj(map["message" := JObj(map["content" := JStr(c)])])] + rest)
      ==> RawContent(u) == c
    ensures u.fields["choices"] == JArr([]) ==> RawContent(u) == ""
  {
  }

  /** The non-stream reply object (object 'chat.completion', one choice at
      index 0 with role 'assistant' and finish_reason 'stop'). */
  datatype Completion = Completion(
    id: string, created: int, model: string, systemFingerprint: Option<Json>,
    content: string, reasoning: string, usage: Option<Json>, timeInfo: Option<Json>)

  datatype Reply =
    | Failure(response: ErrorResponse)
    | Plain(completion: Completion)
    | Streamed(frames: seq<Frame>, delayMs: int)
    | Thrown   // an exception escapes the handler

  /** What openaiCompletions answers once the upstream has replied. */
  function Respond(wantsStream: bool, query: map<string, string>, headers: map<string, string>,
                   up: Upstream, created: int, randomHex: string, number: string -> Option<int>): (r: Reply)
    ensures !IsOk(up.status) ==> r == Failure(ErrorResponse(up.status,
      ApiError(UpstreamErrorMessage(up.text, up.json), "upstream_error", None, Some(JNum(up.status)))))
    ensures IsOk(up.status) && up.json.None? ==>
      r == Failure(ErrorResponse(502, ApiError("Invalid upstream JSON", "upstream_error", None, None)))
    ensures r.Failure? <==> !IsOk(up.status) || up.json.None?
    ensures r.Thrown? <==> IsOk(up.status) && !wantsStream && up.json == Some(JNull)
    ensures r.Plain? <==> IsOk(up.status) && !wantsStream && up.json.Some? && !up.json.value.JNull?
    ensures r.Streamed? <==> IsOk(up.status) && wantsStream && up.json.Some?
    ensures r.Plain? ==> r.completion.model == MODEL_ID && r.completion.created == created
    ensures r.Streamed? ==> r.delayMs == DelayMs(query, headers, number)
  {
    if !IsOk(up.status) then
      Failure(ErrorResponse(up.status,
        ApiError(UpstreamErrorMessage(up.text, up.json), "upstream_error", None, Some(JNum(up.status)))))
    else if up.json.None? then
      Failure(ErrorResponse(502, ApiError("Invalid upstream JSON", "upstream_error", None, None)))
    else
      var u := up.json.value;
      var id := ResponseId(u, randomHex);
      var parts := SplitThinkAnswer(RawContent(u));
      var answer := SanitizeContent(parts.answer, WantFlat(query, headers));
      if !wantsStream then
        if u.JNull? then Thrown
        else Plain(Completion(id, created, MODEL_ID, Prop(u, "system_fingerprint"), answer, parts.think,
                              Prop(u, "usage"), Prop(u, "time_info")))
      else
        Streamed(StreamFrames(id, created, MODEL_ID, parts.think, answer),
                 DelayMs(query, headers, number))
  }

  /** openaiCompletions: `upstreamFor` gives the upstream's reply to the
      body sent to it, `created` is the current time in seconds,
      `randomHex` the output of cryptoRandomId, and `number` JavaScript's
      Number() with non-finite results as None. */
  function OpenAICompletions(req: Request, upstreamFor: Json -> Upstream, created: int,
                             randomHex: string, number: string -> Option<int>): (r: Reply)
    ensures r.Failure? && r.response.status == 400 <==>
      req.body.None? || req.body == Some(JNull)
        || (var p := PrepareRequest(req.body); p.Forward? && upstreamFor(p.payload).status == 400)
    ensures r.Failure? && r.response.status == 502 && r.response.error.message == "Invalid upstream JSON" <==>
      var p := PrepareRequest(req.body);
      p.Forward? && (var up := upstreamFor(p.payload);
        (IsOk(up.status) && up.json.None?)
        || (up.status == 502 && UpstreamErrorMessage(up.text, up.json) == "Invalid upstream JSON"))
    ensures r.Thrown? <==> var p := PrepareRequest(req.body);
      p.Forward? && !p.wantsStream && IsOk(upstreamFor(p.payload).status) && upstreamFor(p.payload).json == Some(JNull)
    ensures r.Plain? <==> var p := PrepareRequest(req.body);
      p.Forward? && !p.wantsStream && IsOk(upstreamFor(p.payload).status)
        && upstreamFor(p.payload).json.Some? && !upstreamFor(p.payload).json.value.JNull?
    ensures r.Streamed? <==> var p := PrepareRequest(req.body);
      p.Forward? && p.wantsStream && IsOk(upstreamFor(p.payload).status) && upstreamFor(p.payload).json.Some?
    ensures r.Failure? <==> var p := PrepareRequest(req.body);
      p.Rejected? || !IsOk(upstreamFor(p.payload).status) || upstreamFor(p.payload).json.None?
    ensures PrepareRequest(req.body).Rejected? ==> r == Failure(PrepareRequest(req.body).response)
    ensures var p := PrepareRequest(req.body);
      p.Forward? ==> r == Respond(p.wantsStream, req.query, req.headers, upstreamFor(p.payload), created, randomHex, number)
  {
    match PrepareRequest(req.body)
    case Rejected(response) => Failure(response)
    case Forward(payload, wantsStream) =>
      Respond(wantsStream, req.query, req.headers, upstreamFor(payload), created, randomHex, number)
  }

  /** A failed upstream reply is passed on with its status, as an
      upstream_error whose code is that status. */
  lemma UpstreamFailurePassedOn(req: Request, upstreamFor: Json -> Upstream, created: int,
                                randomHex: string, number: string -> Option<int>)
    requires var p := PrepareRequest(req.body); p.Forward? && !IsOk(upstreamFor(p.payload).status)
    ensures var up := upstreamFor(PrepareRequest(req.body).payload);
      OpenAICompletions(req, upstreamFor, created, randomHex, number)
        == Failure(ErrorResponse(up.status,
             ApiError(UpstreamErrorMessage(up.text, up.json), "upstream_error", None, Some(JNum(up.status)))))
  {
  }

  /** A 500 whose body is {"detail": "rate limited"} is answered with status
      500 and message "rate limited". */
  lemma RateLimitedExample(created: int, randomHex: string, number: string -> Option<int>)
    ensures var up := Upstream(500, "{\"detail\":\"rate limited\"}", Some(JObj(map["detail" := JStr("rate limited")])));
      Respond(false, map[], map[], up, created, randomHex, number)
        == Failure(ErrorResponse(500, ApiError("rate limited", "upstream_error", None, Some(JNum(500)))))
  {
  }

  /** The stream and the plain reply agree: for the same upstream reply,
      the stream carries the plain reply's reasoning and content, under the
      same id, created time and model. */
  lemma ModesAgree(query: map<string, string>, headers: map<string, string>, up: Upstream,
                   created: int, randomHex: string, number: string -> Option<int>)
    requires IsOk(up.status) && up.json.Some? && !up.json.value.JNull?
    ensures var plain := Respond(false, query, headers, up, created, randomHex, number);
      var streamed := Respond(true, query, headers, up, created, randomHex, number);
      && plain.Plain? && streamed.Streamed?
      && Text(streamed.frames, true) == plain.completion.reasoning
      && Text(streamed.frames, false) == plain.completion.content
      && streamed.frames[0] == Data(plain.completion.id, plain.completion.created, plain.completion.model, RoleDelta, None)
      && streamed.frames == StreamFrames(plain.completion.id, created, MODEL_ID,
                                         plain.completion.reasoning, plain.completion.content)
      && 0 <= streamed.delayMs <= MAX_DELAY_MS
  {
    var plain := Respond(false, query, headers, up, created, randomHex, number);
    var u := up.json.value;
    var parts := SplitThinkAnswer(RawContent(u));
    var answer := SanitizeContent(parts.answer, WantFlat(query, headers));
    var id := ResponseId(u, randomHex);
    StreamCarriesTexts(id, created, MODEL_ID, parts.think, answer);
    StreamCount(id, created, MODEL_ID, parts.think, answer);
  }

  /** An upstream body of JSON null breaks the plain reply (the handler
      reads a property of null) but not the stream, which then carries no
      text at all. */
  lemma NullUpstream(query: map<string, string>, headers: map<string, string>, status: int,
                     created: int, randomHex: string, number: string -> Option<int>)
    requires IsOk(status)
    ensures Respond(false, query, headers, Upstream(status, "null", Some(JNull)), created, randomHex, number) == Thrown
    ensures var r := Respond(true, query, headers, Upstream(status, "null", Some(JNull)), created, randomHex, number);
      r.Streamed? && |r.frames| == 3 && Text(r.frames, true) == "" && Text(r.frames, false) == ""
  {
    NullSplit();
    var answer := SanitizeContent("", WantFlat(query, headers));
    assert answer == "" by {
      if WantFlat(query, headers) {
        assert Flatten("") == "";
      }
    }
    var id := ResponseId(JNull, randomHex);
    var r := Respond(true, query, headers, Upstream(status, "null", Some(JNull)), created, randomHex, number);
    assert r.frames == StreamFrames(id, created, MODEL_ID, "", "");
    StreamCarriesTexts(id, created, MODEL_ID, "", "");
    StreamCount(id, created, MODEL_ID, "", "");
  }

  /** A null upstream reply has no content and no tags. */
  lemma NullSplit()
    ensures SplitThinkAnswer(RawContent(JNull)) == Parts("", "", false, "")
  {
    assert RawContent(JNull) == "";
    NoTagsKeepsText("");
    assert Trim("") == "";
  }

  /** The upstream reply of the usual shape with one message. */
  function ReplyWith(upstreamId: string, content: string): Json {
    JObj(map["id" := JStr(upstreamId),
             "choices" := JArr([JObj(map["message" := JObj(map["content" := JStr(content)])])])])
  }

  /** End to end: an upstream message "<think>R</think><answer>A</answer>",
      with no '<' in R and A, is answered with R trimmed as the reasoning
      and A trimmed as the content, under the upstream's id when it has a
      non-empty string id. */
  lemma ThinkAnswerReply(r: string, a: string, upstreamId: string, created: int, randomHex: string,
                         number: string -> Option<int>)
    requires NoBracket(r) && NoBracket(a) && upstreamId != ""
    ensures var content := THINK_OPEN + r + THINK_CLOSE + ANSWER_OPEN + a + ANSWER_CLOSE;
      Respond(false, map[], map[], Upstream(200, "", Some(ReplyWith(upstreamId, content))), created, randomHex, number)
        == Plain(Completion(upstreamId, created, MODEL_ID, None, Trim(a), Trim(r), None, None))
  {
    var content := THINK_OPEN + r + THINK_CLOSE + ANSWER_OPEN + a + ANSWER_CLOSE;
    var u := ReplyWith(upstreamId, content);
    ReplyWithContent(upstreamId, content, randomHex);
    SplitOfThinkAnswer(r, a);
    NoOptionsNoFlat();
    PlainReply(map[], map[], Upstream(200, "", Some(u)), created, randomHex, number);
  }

  /** The plain reply to a successful upstream reply that is not null. */
  lemma PlainReply(query: map<string, string>, headers: map<string, string>, up: Upstream,
                   created: int, randomHex: string, number: string -> Option<int>)
    requires IsOk(up.status) && up.json.Some? && !up.json.value.JNull?
    ensures var u := up.json.value;
      var parts := SplitThinkAnswer(RawContent(u));
      Respond(false, query, headers, up, created, randomHex, number)
        == Plain(Completion(ResponseId(u, randomHex), created, MODEL_ID, Prop(u, "system_fingerprint"),
                            SanitizeContent(parts.answer, WantFlat(query, headers)), parts.think,
                            Prop(u, "usage"), Prop(u, "time_info")))
  {
  }

  lemma NoOptionsNoFlat()
    ensures !WantFlat(map[], map[])
  {
    NoFlatWithoutOne(map[], map[]);
  }

  lemma ReplyWithContent(upstreamId: string, content: string, randomHex: string)
    requires upstreamId != ""
    ensures RawContent(ReplyWith(upstreamId, content)) == content
    ensures ResponseId(ReplyWith(upstreamId, content), randomHex) == upstreamId
    ensures Prop(ReplyWith(upstreamId, content), "system_fingerprint").None?
    ensures Prop(ReplyWith(upstreamId, content), "usage").None?
    ensures Prop(ReplyWith(upstreamId, content), "time_info").None?
  {
    var u := ReplyWith(upstreamId, content);
    RawContentOfFirstChoice(u, content, []);
    assert [JObj(map["message" := JObj(map["content" := JStr(content)])])] + []
      == [JObj(map["message" := JObj(map["content" := JStr(content)])])];
  }

  lemma SplitOfThinkAnswer(r: string, a: string)
    requires NoBracket(r) && NoBracket(a)
    ensures var content := THINK_OPEN + r + THINK_CLOSE + ANSWER_OPEN + a + ANSWER_CLOSE;
      SplitThinkAnswer(content) == Parts(Trim(r), Trim(a), true, content)
  {
    assert "" + THINK_OPEN + r + THINK_CLOSE + "" + ANSWER_OPEN + a + ANSWER_CLOSE + ""
      == THINK_OPEN + r + THINK_CLOSE + ANSWER_OPEN + a + ANSWER_CLOSE;
    assert NoBracket("");
    WellFormedReply("", r, "", a, "");
  }

  /** End to end: a body that is not JSON is answered with 400
      invalid_request_error "Invalid JSON body", whatever the upstream. */
  lemma BadJsonAnswered(query: map<string, string>, headers: map<string, string>,
                        upstreamFor: Json -> Upstream, created: int, randomHex: string,
                        number: string -> Option<int>)
    ensures OpenAICompletions(Request(None, query, headers), upstreamFor, created, randomHex, number)
      == Failure(ErrorResponse(400, ApiError("Invalid JSON body", "invalid_request_error", None, None)))
  {
  }

  /** End to end: a request for the alias "k2", whose upstream answers
      "<think>R</think><answer>A</answer>" (no '<' in R and A) under a
      non-empty id, gets the completion with reasoning trim(R) and content
      trim(A) under that id. */
  lemma ThinkAnswerEndToEnd(r: string, a: string, upstreamId: string, upstreamFor: Json -> Upstream,
                            created: int, randomHex: string, number: string -> Option<int>)
    requires NoBracket(r) && NoBracket(a) && upstreamId != ""
    requires upstreamFor(JObj(map["model" := JStr(MODEL_ID)]))
      == Upstream(200, "", Some(ReplyWith(upstreamId, THINK_OPEN + r + THINK_CLOSE + ANSWER_OPEN + a + ANSWER_CLOSE)))
    ensures OpenAICompletions(Request(Some(JObj(map["model" := JStr("k2")])), map[], map[]),
                              upstreamFor, created, randomHex, number)
      == Plain(Completion(upstreamId, created, MODEL_ID, None, Trim(a), Trim(r), None, None))
  {
    K2IsAlias();
    AliasThinkAnswer("k2", r, a, upstreamId, upstreamFor, created, randomHex, number);
  }

  /** The same for any alias other than the canonical id. */
  lemma AliasThinkAnswer(m: string, r: string, a: string, upstreamId: string, upstreamFor: Json -> Upstream,
                         created: int, randomHex: string, number: string -> Option<int>)
    requires m != MODEL_ID && IsAlias(Trim(m))
    requires NoBracket(r) && NoBracket(a) && upstreamId != ""
    requires upstreamFor(JObj(map["model" := JStr(MODEL_ID)]))
      == Upstream(200, "", Some(ReplyWith(upstreamId, THINK_OPEN + r + THINK_CLOSE + ANSWER_OPEN + a + ANSWER_CLOSE)))
    ensures OpenAICompletions(Request(Some(JObj(map["model" := JStr(m)])), map[], map[]),
                              upstreamFor, created, randomHex, number)
      == Plain(Completion(upstreamId, created, MODEL_ID, None, Trim(a), Trim(r), None, None))
  {
    var payload := JObj(map["model" := JStr(MODEL_ID)]);
    AliasRequestPrepared(m);
    ThinkAnswerReply(r, a, upstreamId, created, randomHex, number);
    assert OpenAICompletions(Request(Some(JObj(map["model" := JStr(m)])), map[], map[]),
                             upstreamFor, created, randomHex, number)
      == Respond(false, map[], map[], upstreamFor(payload), created, randomHex, number);
  }

  /** A body holding only an aliased model name is forwarded, without a
      stream, naming the canonical id. */
  lemma AliasRequestPrepared(m: string)
    requires m != MODEL_ID && IsAlias(Trim(m))
    ensures PrepareRequest(Some(JObj(map["model" := JStr(m)]))) == Forward(JObj(map["model" := JStr(MODEL_ID)]), false)
  {
    var body := JObj(map["model" := JStr(m)]);
    assert "stream" != "model" by {
      assert "stream"[0] != "model"[0];
    }
    assert Prop(body, "stream") == None;
    RewriteOfAlias(m);
    var p := PrepareRequest(Some(body));
    assert p.Forward? && !p.wantsStream;
    assert p.payload == JObj(map["model" := JStr(MODEL_ID)]);
  }
}

=== FILE: js.dfy ===
/** The parts of the JavaScript language and runtime that the worker's
    transformation core relies on: values as JSON.parse produces them,
    truthiness, property reads, String(...) conversion, Array.prototype.join,
    String.prototype.trim and ASCII case folding. */
module Js {

  datatype Option<+T> = None | Some(value: T)

  /** A value produced by JSON.parse. Numbers are modelled as integers. */
  datatype Json =
    | JNull
    | JBool(b: bool)
    | JNum(n: int)
    | JStr(s: string)
    | JArr(items: seq<Json>)
    | JObj(fields: map<string, Json>)

  /** JavaScript truthiness of a parsed value. */
  predicate Truthy(v: Json) {
    match v
    case JNull => false
    case JBool(b) => b
    case JNum(n) => n != 0
    case JStr(s) => s != ""
    case JArr(_) => true
    case JObj(_) => true
  }

  /** Truthiness of a value that may be `undefined` (None). */
  predicate TruthyOpt(v: Option<Json>) {
    v.Some? && Truthy(v.value)
  }

  /** The property read `v.key` on a non-null value; None stands for
      `undefined`. Only objects carry named properties here. */
  function Prop(v: Json, key: string): (r: Option<Json>)
    ensures r.Some? <==> v.JObj? && key in v.fields
    ensures r.Some? ==> r.value == v.fields[key]
  {
    if v.JObj? && key in v.fields then Some(v.fields[key]) else None
  }

  /** The read `v[0]`: the first element of an array, the property "0" of an
      object, the first character of a string. */
  function Index0(v: Json): Option<Json> {
    match v
    case JArr(xs) => if xs == [] then None else Some(xs[0])
    case JObj(m) => if "0" in m then Some(m["0"]) else None
    case JStr(s) => if s == "" then None else Some(JStr(s[..1]))
    case _ => None
  }

  function Digit(d: nat): char
    requires d < 10
  {
    ('0' as int + d) as char
  }

  function NatString(n: nat): string
  {
    if n < 10 then [Digit(n)] else NatString(n / 10) + [Digit(n % 10)]
  }

  /** Number.prototype.toString for integers. */
  function DecimalString(n: int): string
  {
    if n < 0 then "-" + NatString(-n) else NatString(n)
  }

  /** Array.prototype.join. */
  function Join(parts: seq<string>, sep: string): (r: string)
    ensures |parts| == 1 ==> r == parts[0]
  {
    if |parts| == 0 then ""
    else if |parts| == 1 then parts[0]
    else parts[0] + sep + Join(parts[1..], sep)
  }

  /** String(v). Arrays join their elements with "," and show null as "". */
  function ToJsString(v: Json): string
    decreases v, 1, 0
  {
    match v
    case JNull => "null"
    case JBool(b) => if b then "true" else "false"
    case JNum(n) => DecimalString(n)
    case JStr(s) => s
    case JArr(xs) => Join(ElementStrings(v, 0), ",")
    case JObj(_) => "[object Object]"
  }

  /** String() of a truthy value that is not an array is never empty, and
      an array of one element shows that element, with null shown as "".
      So a truthy id can still give the empty string, as [] does. */
  lemma StringOfTruthy(v: Json, x: Json)
    ensures Truthy(v) && !v.JArr? ==> ToJsString(v) != ""
    ensures ToJsString(JArr([x])) == if x.JNull? then "" else ToJsString(x)
    ensures Truthy(JArr([])) && ToJsString(JArr([])) == ""
  {
    if v.JNum? {
      var n := v.n;
      if n < 0 {
        assert DecimalString(n) == "-" + NatString(-n);
      } else {
        assert NatString(n) != [] by {
          if n >= 10 {
            assert NatString(n) == NatString(n / 10) + [Digit(n % 10)];
          }
        }
      }
    }
    assert ElementStrings(JArr([x]), 1) == [];
  }

  /** The strings Array.prototype.join makes of the elements of the array
      `v` from index `from` on: null becomes "", anything else String(x). */
  function ElementStrings(v: Json, from: nat): seq<string>
    requires v.JArr? && from <= |v.items|
    decreases v, 0, |v.items| - from
  {
    if from == |v.items| then []
    else
      var x := v.items[from];
      [if x.JNull? then "" else ToJsString(x)] + ElementStrings(v, from + 1)
  }

  /** The code points String.prototype.trim removes: the WhiteSpace and
      LineTerminator productions of ECMA-262 (section 12.2 and 12.3). */
  predicate IsSpace(c: char) {
    || c == '\t' || c == '\n' || c == '\U{B}' || c == '\U{C}' || c == '\r' || c == ' '
    || c == '\U{A0}' || c == '\U{1680}' || ('\U{2000}' <= c <= '\U{200A}')
    || c == '\U{2028}' || c == '\U{2029}' || c == '\U{202F}' || c == '\U{205F}'
    || c == '\U{3000}' || c == '\U{FEFF}'
  }

  /** A string with no white space at either end. */
  predicate Trimmed(s: string) {
    s == [] || (!IsSpace(s[0]) && !IsSpace(s[|s| - 1]))
  }

  /** Drops the leading white space: the result is the suffix of `s` that
      starts at its first non-space character. */
  function TrimStart(s: string): (r: string)
    ensures |r| <= |s| && r == s[|s| - |r|..]
    ensures forall k :: 0 <= k < |s| - |r| ==> IsSpace(s[k])
    ensures r == [] || !IsSpace(r[0])
    decreases |s|
  {
    if s != [] && IsSpace(s[0]) then TrimStart(s[1..]) else s
  }

  /** Drops the trailing white space: the result is the prefix of `s` that
      ends at its last non-space character. */
  function TrimEnd(s: string): (r: string)
    ensures |r| <= |s| && r == s[..|r|]
    ensures forall k :: |r| <= k < |s| ==> IsSpace(s[k])
    ensures r == [] || !IsSpace(r[|r| - 1])
    decreases |s|
  {
    if s != [] && IsSpace(s[|s| - 1]) then TrimEnd(s[..|s| - 1]) else s
  }

  /** String.prototype.trim. */
  function Trim(s: string): (r: string)
    ensures Trimmed(r)
    ensures exists i, j :: 0 <= i <= j <= |s| && r == s[i..j]
  {
    var t := TrimStart(s);
    var r := TrimEnd(t);
    assert r == s[|s| - |t|..|s| - |t| + |r|];
    r
  }

  /** Trimming removes exactly the white space at both ends: what is dropped
      before and after the result is all white space. */
  lemma {:induction false} TrimDropsOnlySpace(s: string)
    ensures exists i, j ::
      && 0 <= i <= j <= |s| && Trim(s) == s[i..j]
      && (forall k :: 0 <= k < i ==> IsSpace(s[k]))
      && (forall k :: j <= k < |s| ==> IsSpace(s[k]))
  {
    var t := TrimStart(s);
    var i := |s| - |t|;
    var j := i + |TrimEnd(t)|;
    assert Trim(s) == s[i..j] by {
      assert TrimEnd(t) == s[i..j];
    }
    assert forall k :: j <= k < |s| ==> IsSpace(s[k]) by {
      TrimEndOfSuffix(s, i);
    }
  }

  /** What TrimEnd drops from a suffix of `s` is white space of `s`. */
  lemma TrimEndOfSuffix(s: string, i: nat)
    requires i <= |s|
    ensures forall k :: i + |TrimEnd(s[i..])| <= k < |s| ==> IsSpace(s[k])
  {
    var t := s[i..];
    forall k | i + |TrimEnd(t)| <= k < |s| ensures IsSpace(s[k]) {
      assert s[k] == t[k - i];
    }
  }

  /** trim is the identity exactly on strings without white space at either end. */
  lemma {:induction false} TrimIdentity(s: string)
    ensures Trim(s) == s <==> Trimmed(s)
  {
    if Trimmed(s) {
      assert TrimStart(s) == s;
      assert TrimEnd(s) == s;
    }
  }

  /** ASCII case folding of one character. */
  function LowerChar(c: char): char {
    if 'A' <= c <= 'Z' then (c as int + 32) as char else c
  }

  /** String.prototype.toLowerCase restricted to ASCII letters. */
  function Lower(s: string): (r: string)
    ensures |r| == |s|
  {
    seq(|s|, i requires 0 <= i < |s| => LowerChar(s[i]))
  }

  lemma LowerAt(s: string, k: nat)
    requires k < |s|
    ensures Lower(s)[k] == LowerChar(s[k])
  {
  }

  /** The concatenation of a list of strings. */
  function Concat(parts: seq<string>): string
  {
    if parts == [] then "" else parts[0] + Concat(parts[1..])
  }

  lemma {:induction false} ConcatAppend(a: seq<string>, b: seq<string>)
    ensures Concat(a + b) == Concat(a) + Concat(b)
  {
    if a != [] {
      assert (a + b)[1..] == a[1..] + b;
      ConcatAppend(a[1..], b);
    } else {
      assert a + b == b;
    }
  }
}

=== FILE: models.dfy ===
/** The one model the worker serves, its aliases, the rewrite of an aliased
    model name in a request, and the model list and lookup endpoints. */
module Models {
  import opened Js
  import opened Api

  const MODEL_ID: string := "MBZUAI-IFM/K2-Think"
  const MODEL_ALIASES: seq<string> := ["K2-Think", "k2think", "k2-think", "k2"]
  const OWNER: string := "MBZUAI-IFM"

  /** Every name folded to lower case. */
  function LowerAll(names: seq<string>): (r: seq<string>)
    ensures |r| == |names|
  {
    seq(|names|, i requires 0 <= i < |names| => Lower(names[i]))
  }

  /** MODEL_ALIASES.map(a => a.toLowerCase()).includes(m.toLowerCase()). */
  predicate IsAlias(m: string) {
    Lower(m) in LowerAll(MODEL_ALIASES)
  }

  /** An alias is recognised case-insensitively and nothing else is. */
  lemma IsAliasIff(m: string)
    ensures IsAlias(m) <==> exists a :: a in MODEL_ALIASES && Lower(m) == Lower(a)
  {
    var low := LowerAll(MODEL_ALIASES);
    if IsAlias(m) {
      var i :| 0 <= i < |low| && low[i] == Lower(m);
      assert MODEL_ALIASES[i] in MODEL_ALIASES;
    }
    if a :| a in MODEL_ALIASES && Lower(m) == Lower(a) {
      var i :| 0 <= i < |MODEL_ALIASES| && MODEL_ALIASES[i] == a;
      assert low[i] == Lower(m);
    }
  }

  /** The request names an alias of the served model (after trimming) and
      not the canonical id itself. */
  predicate NamesAlias(payload: Json) {
    && payload.JObj?
    && "model" in payload.fields
    && payload.fields["model"].JStr?
    && payload.fields["model"].s != MODEL_ID
    && IsAlias(Trim(payload.fields["model"].s))
  }

  /** The model rewrite both completion endpoints apply to a parsed body. */
  function RewriteModel(payload: Json): (r: Json)
    ensures r.JObj? <==> payload.JObj?
    ensures r.JObj? ==> r.fields.Keys == payload.fields.Keys
    ensures r.JObj? ==> forall key :: key in r.fields && key != "model" ==> r.fields[key] == payload.fields[key]
  {
    if NamesAlias(payload) then JObj(payload.fields["model" := JStr(MODEL_ID)]) else payload
  }

  /** A body changes exactly when its model is a string other than the
      canonical id whose trimmed, lower-cased form is a lower-cased alias;
      it then names the canonical id. */
  lemma RewriteIff(payload: Json)
    ensures RewriteModel(payload) != payload <==>
      && payload.JObj? && "model" in payload.fields
      && payload.fields["model"].JStr? && payload.fields["model"].s != MODEL_ID
      && exists a :: a in MODEL_ALIASES && Lower(Trim(payload.fields["model"].s)) == Lower(a)
    ensures RewriteModel(payload) != payload ==> Prop(RewriteModel(payload), "model") == Some(JStr(MODEL_ID))
  {
    if payload.JObj? && "model" in payload.fields && payload.fields["model"].JStr? {
      IsAliasIff(Trim(payload.fields["model"].s));
      if NamesAlias(payload) {
        assert RewriteModel(payload).fields["model"] != payload.fields["model"];
      }
    }
  }

  /** The canonical id is not an alias, so a rewritten body is left alone
      by a second rewrite. */
  lemma RewriteIdempotent(payload: Json)
    ensures RewriteModel(RewriteModel(payload)) == RewriteModel(payload)
  {
  }

  /** The model object of GET /v1/models and GET /v1/models/{id};
      `created` is the current time in seconds. */
  datatype ModelObject = ModelObject(
    id: string, objectKind: string, created: int, ownedBy: string, root: string, parent: Option<string>)

  function ModelInfo(created: int): (m: ModelObject)
    ensures m.id == MODEL_ID && m.root == MODEL_ID && m.ownedBy == OWNER
    ensures m.objectKind == "model" && m.created == created && m.parent.None?
  {
    ModelObject(MODEL_ID, "model", created, OWNER, MODEL_ID, None)
  }

  /** GET /v1/models: a list holding the one model. */
  function ListModels(created: int): (r: seq<ModelObject>)
    ensures |r| == 1 && r[0].id == MODEL_ID && r[0].created == created
    ensures r == [ModelInfo(created)]
  {
    [ModelInfo(created)]
  }

  datatype Lookup = Found(model: ModelObject) | NotFound(response: ErrorResponse)

  /** GET /v1/models/{id} for the decoded id: the canonical id exactly, or
      an alias in any letter case; no trimming. */
  function LookupModel(id: string, created: int): (r: Lookup)
  {
    if id == MODEL_ID || IsAlias(id) then Found(ModelInfo(created))
    else NotFound(ErrorResponse(404,
      ApiError("The model is not found", "invalid_request_error", Some("model"), Some(JStr("model_not_found")))))
  }

  /** The lookup finds the model exactly for the canonical id and for the
      aliases in any letter case, and then answers with the model object;
      anything else is a 404 model_not_found error. */
  lemma LookupIff(id: string, created: int)
    ensures LookupModel(id, created).Found? <==>
      id == MODEL_ID || exists a :: a in MODEL_ALIASES && Lower(id) == Lower(a)
    ensures LookupModel(id, created).Found? ==> LookupModel(id, created).model == ListModels(created)[0]
    ensures LookupModel(id, created).Found? ==> LookupModel(id, created).model == ModelInfo(created)
    ensures LookupModel(id, created).NotFound? ==>
      && LookupModel(id, created).response.status == 404
      && LookupModel(id, created).response.error.code == Some(JStr("model_not_found"))
  {
    IsAliasIff(id);
  }

  /** A name whose length no alias has is not an alias. */
  lemma NotAliasByLength(m: string)
    requires forall a :: a in MODEL_ALIASES ==> |a| != |m|
    ensures !IsAlias(m)
  {
    IsAliasIff(m);
  }

  /** Each alias, as written, is recognised. */
  lemma AliasIsAlias(i: nat)
    requires i < |MODEL_ALIASES|
    ensures IsAlias(MODEL_ALIASES[i])
  {
    IsAliasIff(MODEL_ALIASES[i]);
  }

  /** The lookup does not trim: " k2" is not found. */
  lemma LookupDoesNotTrim(created: int)
    ensures LookupModel(" k2", created).NotFound?
  {
    NotAliasByLength(" k2");
  }

  /** The request rewrite does trim: a body naming " k2" is sent upstream
      naming the canonical id. */
  lemma RewriteTrims()
    ensures RewriteModel(JObj(map["model" := JStr(" k2")])) == JObj(map["model" := JStr(MODEL_ID)])
  {
    assert IsAlias(Trim(" k2")) by {
      TrimOfPaddedK2();
      AliasIsAlias(3);
    }
    assert |" k2"| != |MODEL_ID|;
    RewriteOfAlias(" k2");
  }

  /** A body holding only an aliased model name. */
  lemma RewriteOfAlias(m: string)
    requires m != MODEL_ID && IsAlias(Trim(m))
    ensures RewriteModel(JObj(map["model" := JStr(m)])) == JObj(map["model" := JStr(MODEL_ID)])
  {
    var fields := map["model" := JStr(m)];
    assert NamesAlias(JObj(fields));
    assert fields["model" := JStr(MODEL_ID)] == map["model" := JStr(MODEL_ID)];
  }

  lemma TrimOfPaddedK2()
    ensures Trim(" k2") == MODEL_ALIASES[3]
  {
    var k2 := MODEL_ALIASES[3];
    assert " k2"[1..] == k2;
    assert !IsSpace(k2[0]) && !IsSpace(k2[|k2| - 1]);
    assert TrimStart(k2) == k2;
    assert TrimStart(" k2") == k2;
    assert TrimEnd(k2) == k2;
  }

  /** "k2" is already trimmed and is an alias other than the canonical id. */
  lemma K2IsAlias()
    ensures Trim("k2") == "k2" && IsAlias(Trim("k2")) && "k2" != MODEL_ID
  {
    var k2 := MODEL_ALIASES[3];
    assert !IsSpace(k2[0]) && !IsSpace(k2[|k2| - 1]);
    assert TrimStart(k2) == k2;
    assert TrimEnd(k2) == k2;
    AliasIsAlias(3);
    assert |k2| != |MODEL_ID|;
  }

  /** The canonical id is matched case-sensitively: its lower-case spelling
      is not found. */
  lemma LookupIdIsCaseSensitive(created: int)
    ensures LookupModel("mbzuai-ifm/k2-think", created).NotFound?
  {
    NotAliasByLength("mbzuai-ifm/k2-think");
    assert "mbzuai-ifm/k2-think"[0] != MODEL_ID[0];
  }
}

=== FILE: options.dfy ===
/** Per-request options of the OpenAI-compatible endpoint: whether the answer
    is flattened onto one line, and the pause between synthesized stream
    frames. Query parameters map a name to its first value; headers are
    keyed by their lower-case names. */
module Options {
  import opened Js

  const FLAT_KEYS: seq<string> := ["flat", "strip_newlines", "flat_content"]
  const MAX_DELAY_MS: int := 2000

  /** searchParams.get(name): None when the parameter is absent. */
  function Query(query: map<string, string>, name: string): Option<string> {
    if name in query then Some(query[name]) else None
  }

  /** headers.get(name) || '': the empty string when the header is absent. */
  function Header(headers: map<string, string>, name: string): string {
    if name in headers then headers[name] else ""
  }

  /** The test made for one key k:
      (qp(k) || hv('x-' + k)) && (qp(k) === '1' || qp(k) === '' || hv('x-' + k) === '1'). */
  predicate FlatKey(query: map<string, string>, headers: map<string, string>, k: string) {
    var q := Query(query, k);
    var h := Header(headers, "x-" + k);
    && ((q.Some? && q.value != "") || h != "")
    && (q == Some("1") || q == Some("") || h == "1")
  }

  /** wantFlat: some key among flat, strip_newlines and flat_content asks for it. */
  predicate WantFlat(query: map<string, string>, headers: map<string, string>) {
    exists k :: k in FLAT_KEYS && FlatKey(query, headers, k)
  }

  /** The truth table of one key: it asks for flattening exactly when the
      query value is "1", or the x- header is "1", or the query parameter is
      present but empty while the x- header has some value. */
  lemma FlatKeyTable(query: map<string, string>, headers: map<string, string>, k: string)
    ensures FlatKey(query, headers, k) <==>
      || Query(query, k) == Some("1")
      || Header(headers, "x-" + k) == "1"
      || (Query(query, k) == Some("") && Header(headers, "x-" + k) != "")
  {
  }

  /** wantFlat over the three keys, written out. */
  lemma WantFlatTable(query: map<string, string>, headers: map<string, string>)
    ensures WantFlat(query, headers) <==>
      FlatKey(query, headers, "flat") || FlatKey(query, headers, "strip_newlines")
      || FlatKey(query, headers, "flat_content")
  {
    if FlatKey(query, headers, "flat") {
      assert FLAT_KEYS[0] == "flat";
    } else if FlatKey(query, headers, "strip_newlines") {
      assert FLAT_KEYS[1] == "strip_newlines";
    } else if FlatKey(query, headers, "flat_content") {
      assert FLAT_KEYS[2] == "flat_content";
    }
  }

  /** Values that ask for nothing: any value other than "1" in the query
      with no x- header, or any value other than "1" in the x- header with
      no query parameter, leaves the answer as it is. */
  lemma NoFlatWithoutOne(query: map<string, string>, headers: map<string, string>)
    requires forall k :: k in FLAT_KEYS ==> Query(query, k) != Some("1") && Header(headers, "x-" + k) != "1"
    requires forall k :: k in FLAT_KEYS ==> Query(query, k) != Some("") || Header(headers, "x-" + k) == ""
    ensures !WantFlat(query, headers)
  {
    forall k | k in FLAT_KEYS ensures !FlatKey(query, headers, k) {
      FlatKeyTable(query, headers, k);
    }
  }

  /** url.searchParams.get('chunk_delay_ms') || request.headers.get('x-chunk-delay-ms'):
      the first non-empty of the two, or None when both are absent or empty
      and the expression falls through to the number 0. */
  function DelaySource(query: map<string, string>, headers: map<string, string>): (r: Option<string>)
    ensures Query(query, "chunk_delay_ms").Some? && Query(query, "chunk_delay_ms").value != ""
      ==> r == Query(query, "chunk_delay_ms")
    ensures (Query(query, "chunk_delay_ms").None? || Query(query, "chunk_delay_ms").value == "")
      ==> r == (if Header(headers, "x-chunk-delay-ms") != "" then Some(Header(headers, "x-chunk-delay-ms")) else None)
    ensures r.Some? ==> r.value != ""
  {
    var q := Query(query, "chunk_delay_ms");
    var h := Header(headers, "x-chunk-delay-ms");
    if q.Some? && q.value != "" then q
    else if h != "" then Some(h)
    else None
  }

  /** The delay between frames: a number that is not finite counts as 0,
      anything else is clamped into [0, 2000] milliseconds. */
  function ClampDelay(n: Option<int>): (r: int)
    ensures 0 <= r <= MAX_DELAY_MS
    ensures n.Some? && 0 <= n.value <= MAX_DELAY_MS ==> r == n.value
    ensures n.Some? && n.value > MAX_DELAY_MS ==> r == MAX_DELAY_MS
    ensures n.None? || n.value <= 0 ==> r == 0
  {
    match n
    case None => 0
    case Some(d) => if d < 0 then 0 else if d > MAX_DELAY_MS then MAX_DELAY_MS else d
  }

  /** delayMs: Number() of the delay text, or Number(0) when there is none,
      then clamped. `number` is JavaScript's Number() on a string, with a
      result that is not finite as None. */
  function DelayMs(query: map<string, string>, headers: map<string, string>,
                   number: string -> Option<int>): (r: int)
    ensures 0 <= r <= MAX_DELAY_MS
    ensures DelaySource(query, headers).None? ==> r == 0
    ensures DelaySource(query, headers).Some? ==> r == ClampDelay(number(DelaySource(query, headers).value))
  {
    match DelaySource(query, headers)
    case None => ClampDelay(Some(0))
    case Some(t) => ClampDelay(number(t))
  }

  /** With neither the query parameter nor the header, the stream has no
      pause between frames, whatever Number() would make of a string. */
  lemma NoDelayAsked(query: map<string, string>, headers: map<string, string>,
                     number: string -> Option<int>)
    requires "chunk_delay_ms" !in query && "x-chunk-delay-ms" !in headers
    ensures DelayMs(query, headers, number) == 0
  {
  }
}

=== FILE: sanitize.dfy ===
/** sanitizeContent: optional flattening of an answer onto one line, where
    every run of carriage returns and line feeds becomes a single space
    (the replacement of the global pattern [\r\n]+ by " "). */
module Sanitize {

  predicate IsLineBreak(c: char) {
    c == '\r' || c == '\n'
  }

  /** No carriage return or line feed anywhere in `s`. */
  predicate NoBreaks(s: string) {
    forall k :: 0 <= k < |s| ==> !IsLineBreak(s[k])
  }

  /** Every character of `s` is a line break. */
  predicate AllBreaks(s: string) {
    forall k :: 0 <= k < |s| ==> IsLineBreak(s[k])
  }

  /** The suffix of `s` after its leading run of line breaks. */
  function DropLeadingBreaks(s: string): (r: string)
    ensures |r| <= |s| && r == s[|s| - |r|..]
    ensures forall k :: 0 <= k < |s| - |r| ==> IsLineBreak(s[k])
    ensures r == [] || !IsLineBreak(r[0])
    decreases |s|
  {
    if s != [] && IsLineBreak(s[0]) then
      var r := DropLeadingBreaks(s[1..]);
      assert s[1..][|s| - 1 - |r|..] == s[|s| - |r|..];
      r
    else s
  }

  /** s.replace(/[\r\n]+/g, ' '): each maximal run of line breaks becomes
      one space; everything else is kept in order. */
  function Flatten(s: string): (r: string)
    ensures NoBreaks(r)
    ensures |r| <= |s|
    decreases |s|
  {
    if s == [] then []
    else if IsLineBreak(s[0]) then [' '] + Flatten(DropLeadingBreaks(s))
    else [s[0]] + Flatten(s[1..])
  }

  /** sanitizeContent(str, { stripNewlines }) on a string argument. */
  function SanitizeContent(s: string, stripNewlines: bool): (r: string)
    ensures stripNewlines ==> NoBreaks(r)
    ensures !stripNewlines ==> r == s
  {
    if stripNewlines then Flatten(s) else s
  }

  /** Flattening changes a text exactly when the text has a line break. */
  lemma {:induction false} FlattenIdentity(s: string)
    ensures Flatten(s) == s <==> NoBreaks(s)
  {
    if NoBreaks(s) && s != [] {
      assert NoBreaks(s[1..]) by {
        forall k | 0 <= k < |s| - 1 ensures !IsLineBreak(s[1..][k]) {
          assert s[1..][k] == s[k + 1];
        }
      }
      FlattenIdentity(s[1..]);
    }
  }

  /** Flattening twice is flattening once. */
  lemma FlattenIdempotent(s: string)
    ensures Flatten(Flatten(s)) == Flatten(s)
  {
    FlattenIdentity(Flatten(s));
  }

  /** A text that does not end inside a run of line breaks flattens
      independently of what follows it. */
  lemma {:induction false} FlattenAppend(x: string, y: string)
    requires x == [] || !IsLineBreak(x[|x| - 1])
    ensures Flatten(x + y) == Flatten(x) + Flatten(y)
  {
    if x == [] {
      assert x + y == y;
    } else if IsLineBreak(x[0]) {
      var d := DropLeadingBreaks(x);
      assert Flatten(x + y) == " " + Flatten(d + y) by {
        DropBreaksAppend(x, y);
      }
      assert Flatten(d + y) == Flatten(d) + Flatten(y) by {
        FlattenAppend(d, y);
      }
      FlattenAppendRegroup(" ", Flatten(d), Flatten(y));
    } else {
      assert Flatten(x + y) == [x[0]] + Flatten(x[1..] + y) by {
        assert (x + y)[1..] == x[1..] + y;
      }
      assert Flatten(x[1..] + y) == Flatten(x[1..]) + Flatten(y) by {
        FlattenAppend(x[1..], y);
      }
      FlattenAppendRegroup([x[0]], Flatten(x[1..]), Flatten(y));
    }
  }

  /** Regrouping a concatenation of three texts, kept apart from the facts
      about Flatten. */
  lemma FlattenAppendRegroup(a: string, b: string, c: string)
    ensures a + (b + c) == (a + b) + c
  {
  }

  /** Dropping the leading breaks of x + y when x does not end with one. */
  lemma {:induction false} DropBreaksAppend(x: string, y: string)
    requires x != [] && !IsLineBreak(x[|x| - 1])
    ensures DropLeadingBreaks(x + y) == DropLeadingBreaks(x) + y
  {
    if IsLineBreak(x[0]) {
      assert (x + y)[1..] == x[1..] + y;
      DropBreaksAppend(x[1..], y);
    }
  }

  /** A non-empty run of line breaks in front of a text that does not start
      with one becomes a single space. */
  lemma {:induction false} FlattenRun(run: string, y: string)
    requires run != [] && AllBreaks(run)
    requires y == [] || !IsLineBreak(y[0])
    ensures Flatten(run + y) == " " + Flatten(y)
  {
    assert IsLineBreak((run + y)[0]);
    assert DropLeadingBreaks(run + y) == y by {
      DropRun(run, y);
    }
  }

  lemma {:induction false} DropRun(run: string, y: string)
    requires AllBreaks(run)
    requires y == [] || !IsLineBreak(y[0])
    ensures DropLeadingBreaks(run + y) == y
  {
    if run == [] {
      assert run + y == y;
    } else {
      assert (run + y)[1..] == run[1..] + y;
      assert AllBreaks(run[1..]) by {
        forall k | 0 <= k < |run| - 1 ensures IsLineBreak(run[1..][k]) {
          assert run[1..][k] == run[k + 1];
        }
      }
      DropRun(run[1..], y);
    }
  }

  /** The replacement in context: x, then a maximal run of line breaks, then
      y, flattens to x and y flattened with one space between them. */
  lemma FlattenCollapsesRun(x: string, run: string, y: string)
    requires x == [] || !IsLineBreak(x[|x| - 1])
    requires run != [] && AllBreaks(run)
    requires y == [] || !IsLineBreak(y[0])
    ensures Flatten(x + run + y) == Flatten(x) + " " + Flatten(y)
  {
    var t := run + y;
    assert x + run + y == x + t;
    assert Flatten(t) == " " + Flatten(y) by {
      FlattenRun(run, y);
    }
    assert Flatten(x + t) == Flatten(x) + Flatten(t) by {
      FlattenAppend(x, t);
    }
    CollapsedRunRegroup(Flatten(x), Flatten(y), Flatten(t), Flatten(x + t));
  }

  /** Regrouping a concatenation, kept apart from the facts about Flatten. */
  lemma CollapsedRunRegroup(fx: string, fy: string, ft: string, fxt: string)
    requires ft == " " + fy
    requires fxt == fx + ft
    ensures fxt == fx + " " + fy
  {
  }

  /** A line with a CR LF pair and a blank line in it,
      x "\r\n" y "\n\n" z, comes out as x " " y " " z when x, y and z are
      not line breaks. */
  lemma FlattenExample(x: char, y: char, z: char)
    requires !IsLineBreak(x) && !IsLineBreak(y) && !IsLineBreak(z)
    ensures SanitizeContent([x, '\r', '\n', y, '\n', '\n', z], true) == [x, ' ', y, ' ', z]
  {
    var s := [x, '\r', '\n', y, '\n', '\n', z];
    var tail := [y, '\n', '\n', z];
    assert s == [x] + ['\r', '\n'] + tail;
    assert Flatten(s) == Flatten([x]) + " " + Flatten(tail) by {
      assert AllBreaks(['\r', '\n']);
      FlattenCollapsesRun([x], ['\r', '\n'], tail);
    }
    assert Flatten(tail) == [y, ' ', z] by {
      FlattenOneRun(y, '\n', '\n', z);
    }
    assert Flatten([x]) == [x] by {
      FlattenIdentity([x]);
    }
  }

  /** x b c z with the line breaks b and c comes out as x " " z. */
  lemma FlattenOneRun(x: char, b: char, c: char, z: char)
    requires !IsLineBreak(x) && IsLineBreak(b) && IsLineBreak(c) && !IsLineBreak(z)
    ensures Flatten([x, b, c, z]) == [x, ' ', z]
  {
    assert [x, b, c, z] == [x] + [b, c] + [z];
    assert Flatten([x, b, c, z]) == Flatten([x]) + " " + Flatten([z]) by {
      assert AllBreaks([b, c]);
      FlattenCollapsesRun([x], [b, c], [z]);
    }
    assert Flatten([x]) == [x] by {
      FlattenIdentity([x]);
    }
    assert Flatten([z]) == [z] by {
      FlattenIdentity([z]);
    }
  }
}

=== FILE: stream.dfy ===
/** The synthesized server-sent-event stream of the OpenAI-compatible
    endpoint: a role frame, the reasoning in slices, the answer in slices, a
    stop frame and the [DONE] sentinel. Frames are modelled as values; their
    JSON text, the encoder and the pauses between them are not. */
module Stream {
  import opened Js
  import opened Slices

  /** The slice size of chunkString in the stream. */
  const SLICE: nat := 400

  /** choices[0].delta of a frame. */
  datatype Delta =
    | RoleDelta                      // { role: 'assistant' }
    | ReasoningDelta(piece: string)  // { reasoning_content: piece }
    | ContentDelta(piece: string)    // { content: piece }
    | EmptyDelta                     // {}

  /** One `data:` event: a chunk object (choice index 0) or the sentinel. */
  datatype Frame =
    | Data(id: string, created: int, model: string, delta: Delta, finishReason: Option<string>)
    | Done

  /** The frames sent for the slices `pieces`, skipping empty ones; each
      slice goes into a reasoning delta or a content delta. */
  function PieceFrames(id: string, created: int, model: string, pieces: seq<string>, reasoning: bool): seq<Frame>
  {
    if pieces == [] then []
    else
      var last := pieces[|pieces| - 1];
      var before := PieceFrames(id, created, model, pieces[..|pieces| - 1], reasoning);
      if last == "" then before
      else before + [Data(id, created, model, if reasoning then ReasoningDelta(last) else ContentDelta(last), None)]
  }

  /** The reasoning frames: sent only when there is reasoning at all. */
  function ReasoningFrames(id: string, created: int, model: string, think: string): seq<Frame> {
    if think != "" then PieceFrames(id, created, model, Chunks(think, SLICE), true) else []
  }

  function ContentFrames(id: string, created: int, model: string, answer: string): seq<Frame> {
    PieceFrames(id, created, model, Chunks(answer, SLICE), false)
  }

  /** The whole stream for one reply. */
  function StreamFrames(id: string, created: int, model: string, think: string, answer: string): seq<Frame> {
    [Data(id, created, model, RoleDelta, None)]
    + ReasoningFrames(id, created, model, think)
    + ContentFrames(id, created, model, answer)
    + [Data(id, created, model, EmptyDelta, Some("stop")), Done]
  }

  /** The start() callback of the stream: sends the frames in order. */
  method EmitFrames(id: string, created: int, model: string, think: string, answer: string)
    returns (frames: seq<Frame>)
    ensures frames == StreamFrames(id, created, model, think, answer)
  {
    frames := [Data(id, created, model, RoleDelta, None)];
    if think != "" {
      var pieces := ChunkString(think, SLICE);
      var i := 0;
      while i < |pieces|
        invariant 0 <= i <= |pieces|
        invariant frames == [Data(id, created, model, RoleDelta, None)]
          + PieceFrames(id, created, model, pieces[..i], true)
      {
        assert pieces[..i + 1][..i] == pieces[..i];
        if pieces[i] != "" {
          frames := frames + [Data(id, created, model, ReasoningDelta(pieces[i]), None)];
        }
        i := i + 1;
      }
      assert pieces[..i] == pieces;
    }
    ghost var head := frames;
    var pieces := ChunkString(answer, SLICE);
    var i := 0;
    while i < |pieces|
      invariant 0 <= i <= |pieces|
      invariant frames == head + PieceFrames(id, created, model, pieces[..i], false)
    {
      assert pieces[..i + 1][..i] == pieces[..i];
      if pieces[i] != "" {
        frames := frames + [Data(id, created, model, ContentDelta(pieces[i]), None)];
      }
      i := i + 1;
    }
    assert pieces[..i] == pieces;
    frames := frames + [Data(id, created, model, EmptyDelta, Some("stop")), Done];
  }

  /** The text carried, in order, by the reasoning deltas of `frames`
      (`reasoning` true) or by their content deltas (false). */
  function Text(frames: seq<Frame>, reasoning: bool): string {
    if frames == [] then ""
    else
      var f := frames[|frames| - 1];
      Text(frames[..|frames| - 1], reasoning) + PieceOf(f, reasoning)
  }

  function PieceOf(f: Frame, reasoning: bool): string {
    if f.Data? && (if reasoning then f.delta.ReasoningDelta? else f.delta.ContentDelta?) then f.delta.piece
    else ""
  }

  lemma {:induction false} TextAppend(a: seq<Frame>, b: seq<Frame>, reasoning: bool)
    ensures Text(a + b, reasoning) == Text(a, reasoning) + Text(b, reasoning)
    decreases |b|
  {
    if b == [] {
      assert a + b == a;
    } else {
      var init := b[..|b| - 1];
      var f := b[|b| - 1];
      assert (a + b)[..|a + b| - 1] == a + init;
      assert (a + b)[|a + b| - 1] == f;
      assert Text(a + b, reasoning) == Text(a + init, reasoning) + PieceOf(f, reasoning);
      assert Text(b, reasoning) == Text(init, reasoning) + PieceOf(f, reasoning);
      TextAppend(a, init, reasoning);
    }
  }

  lemma TextSnoc(a: seq<Frame>, f: Frame, reasoning: bool)
    ensures Text(a + [f], reasoning) == Text(a, reasoning) + PieceOf(f, reasoning)
  {
    assert (a + [f])[..|a|] == a;
  }

  lemma TextSingle(f: Frame, reasoning: bool)
    ensures Text([f], reasoning) == PieceOf(f, reasoning)
  {
    assert [f][..0] == [];
  }

  /** Frames made from slices carry the slices back, in order, in deltas of
      the chosen kind only. */
  lemma {:induction false} PieceFramesCarry(id: string, created: int, model: string, pieces: seq<string>, reasoning: bool)
    ensures Text(PieceFrames(id, created, model, pieces, reasoning), reasoning) == Concat(pieces)
    ensures Text(PieceFrames(id, created, model, pieces, reasoning), !reasoning) == ""
    decreases |pieces|
  {
    if pieces != [] {
      var init := pieces[..|pieces| - 1];
      PieceFramesCarry(id, created, model, init, reasoning);
      ConcatOfLast(pieces);
      if pieces[|pieces| - 1] != "" {
        LastPieceCarried(id, created, model, pieces, reasoning);
      } else {
        assert PieceFrames(id, created, model, pieces, reasoning) == PieceFrames(id, created, model, init, reasoning);
      }
    }
  }

  /** The slices without their last one join to the rest of the text. */
  lemma ConcatOfLast(pieces: seq<string>)
    requires pieces != []
    ensures Concat(pieces) == Concat(pieces[..|pieces| - 1]) + pieces[|pieces| - 1]
  {
    var init := pieces[..|pieces| - 1];
    var last := pieces[|pieces| - 1];
    assert pieces == init + [last];
    ConcatAppend(init, [last]);
    assert Concat([last]) == last;
  }

  /** A non-empty last slice adds its frame, whose text is the slice in
      its own kind of delta and nothing in the other. */
  lemma LastPieceCarried(id: string, created: int, model: string, pieces: seq<string>, reasoning: bool)
    requires pieces != [] && pieces[|pieces| - 1] != ""
    ensures var before := PieceFrames(id, created, model, pieces[..|pieces| - 1], reasoning);
      && Text(PieceFrames(id, created, model, pieces, reasoning), reasoning)
           == Text(before, reasoning) + pieces[|pieces| - 1]
      && Text(PieceFrames(id, created, model, pieces, reasoning), !reasoning) == Text(before, !reasoning)
  {
    var last := pieces[|pieces| - 1];
    var before := PieceFrames(id, created, model, pieces[..|pieces| - 1], reasoning);
    var f := Data(id, created, model, if reasoning then ReasoningDelta(last) else ContentDelta(last), None);
    assert PieceFrames(id, created, model, pieces, reasoning) == before + [f];
    TextSnoc(before, f, reasoning);
    TextSnoc(before, f, !reasoning);
  }

  /** Every frame made from slices is a data frame of this reply, with no
      finish reason, whose delta is a non-empty slice of the chosen kind. */
  lemma {:induction false} PieceFramesShape(id: string, created: int, model: string, pieces: seq<string>, reasoning: bool)
    ensures forall f :: f in PieceFrames(id, created, model, pieces, reasoning) ==>
      && f.Data? && f.id == id && f.created == created && f.model == model && f.finishReason.None?
      && (if reasoning then f.delta.ReasoningDelta? else f.delta.ContentDelta?)
      && f.delta.piece in pieces && f.delta.piece != ""
    decreases |pieces|
  {
    if pieces != [] {
      var init := pieces[..|pieces| - 1];
      PieceFramesShape(id, created, model, init, reasoning);
      forall p | p in init ensures p in pieces {
        var k :| 0 <= k < |init| && init[k] == p;
        assert pieces[k] == p;
      }
    }
  }

  /** Since no slice is empty, every slice gets a frame. */
  lemma {:induction false} PieceFramesCount(id: string, created: int, model: string, pieces: seq<string>, reasoning: bool)
    requires forall k :: 0 <= k < |pieces| ==> pieces[k] != ""
    ensures |PieceFrames(id, created, model, pieces, reasoning)| == |pieces|
    decreases |pieces|
  {
    if pieces != [] {
      PieceFramesCount(id, created, model, pieces[..|pieces| - 1], reasoning);
    }
  }

  /** With no empty slice, the k-th frame made from slices carries the k-th
      slice. */
  lemma {:induction false} PieceFramesAt(id: string, created: int, model: string, pieces: seq<string>,
                                         reasoning: bool, k: nat)
    requires forall j :: 0 <= j < |pieces| ==> pieces[j] != ""
    requires k < |pieces|
    ensures |PieceFrames(id, created, model, pieces, reasoning)| == |pieces|
    ensures PieceFrames(id, created, model, pieces, reasoning)[k]
      == Data(id, created, model, if reasoning then ReasoningDelta(pieces[k]) else ContentDelta(pieces[k]), None)
    decreases |pieces|
  {
    var init := pieces[..|pieces| - 1];
    PieceFramesCount(id, created, model, pieces, reasoning);
    if k < |init| {
      PieceFramesAt(id, created, model, init, reasoning, k);
    }
  }

  /** The stream frame by frame: the role frame; then one reasoning frame
      per slice of `think`, in order; then one content frame per slice of
      `answer`, in order; then the stop frame and [DONE]. */
  lemma StreamPositions(id: string, created: int, model: string, think: string, answer: string)
    ensures var fs := StreamFrames(id, created, model, think, answer);
      var ts := Chunks(think, SLICE);
      var cs := Chunks(answer, SLICE);
      && |fs| == 3 + |ts| + |cs|
      && fs[0] == Data(id, created, model, RoleDelta, None)
      && (forall k :: 0 <= k < |ts| ==> fs[1 + k] == Data(id, created, model, ReasoningDelta(ts[k]), None))
      && (forall k :: 0 <= k < |cs| ==> fs[1 + |ts| + k] == Data(id, created, model, ContentDelta(cs[k]), None))
      && fs[|fs| - 2] == Data(id, created, model, EmptyDelta, Some("stop"))
      && fs[|fs| - 1] == Done
  {
    StreamCount(id, created, model, think, answer);
    ReasoningPositions(id, created, model, think, answer);
    ContentPositions(id, created, model, think, answer);
  }

  lemma ReasoningPositions(id: string, created: int, model: string, think: string, answer: string)
    ensures var fs := StreamFrames(id, created, model, think, answer);
      var ts := Chunks(think, SLICE);
      forall k :: 0 <= k < |ts| ==> 1 + k < |fs| && fs[1 + k] == Data(id, created, model, ReasoningDelta(ts[k]), None)
  {
    var ts := Chunks(think, SLICE);
    var rs := ReasoningFrames(id, created, model, think);
    var fs := [Data(id, created, model, RoleDelta, None)] + rs
      + ContentFrames(id, created, model, answer) + [Data(id, created, model, EmptyDelta, Some("stop")), Done];
    assert fs == StreamFrames(id, created, model, think, answer);
    ReasoningFramesAt(id, created, model, think);
    forall k | 0 <= k < |ts|
      ensures 1 + k < |fs| && fs[1 + k] == Data(id, created, model, ReasoningDelta(ts[k]), None)
    {
      assert fs[1 + k] == rs[k];
    }
  }

  lemma ContentPositions(id: string, created: int, model: string, think: string, answer: string)
    ensures var fs := StreamFrames(id, created, model, think, answer);
      var ts := Chunks(think, SLICE);
      var cs := Chunks(answer, SLICE);
      forall k :: 0 <= k < |cs| ==>
        1 + |ts| + k < |fs| && fs[1 + |ts| + k] == Data(id, created, model, ContentDelta(cs[k]), None)
  {
    var ts := Chunks(think, SLICE);
    var cs := Chunks(answer, SLICE);
    var rs := ReasoningFrames(id, created, model, think);
    var ns := ContentFrames(id, created, model, answer);
    var fs := [Data(id, created, model, RoleDelta, None)] + rs + ns
      + [Data(id, created, model, EmptyDelta, Some("stop")), Done];
    assert fs == StreamFrames(id, created, model, think, answer);
    ReasoningFramesAt(id, created, model, think);
    ContentFramesAt(id, created, model, answer);
    forall k | 0 <= k < |cs|
      ensures 1 + |ts| + k < |fs| && fs[1 + |ts| + k] == Data(id, created, model, ContentDelta(cs[k]), None)
    {
      assert fs[1 + |ts| + k] == ns[k];
    }
  }

  lemma ReasoningFramesAt(id: string, created: int, model: string, think: string)
    ensures var ts := Chunks(think, SLICE);
      && |ReasoningFrames(id, created, model, think)| == |ts|
      && forall k :: 0 <= k < |ts| ==>
           ReasoningFrames(id, created, model, think)[k] == Data(id, created, model, ReasoningDelta(ts[k]), None)
  {
    var ts := Chunks(think, SLICE);
    ChunksCover(think, SLICE);
    PieceFramesCount(id, created, model, ts, true);
    forall k | 0 <= k < |ts|
      ensures ReasoningFrames(id, created, model, think)[k] == Data(id, created, model, ReasoningDelta(ts[k]), None)
    {
      PieceFramesAt(id, created, model, ts, true, k);
    }
  }

  lemma ContentFramesAt(id: string, created: int, model: string, answer: string)
    ensures var cs := Chunks(answer, SLICE);
      && |ContentFrames(id, created, model, answer)| == |cs|
      && forall k :: 0 <= k < |cs| ==>
           ContentFrames(id, created, model, answer)[k] == Data(id, created, model, ContentDelta(cs[k]), None)
  {
    var cs := Chunks(answer, SLICE);
    ChunksCover(answer, SLICE);
    PieceFramesCount(id, created, model, cs, false);
    forall k | 0 <= k < |cs|
      ensures ContentFrames(id, created, model, answer)[k] == Data(id, created, model, ContentDelta(cs[k]), None)
    {
      PieceFramesAt(id, created, model, cs, false, k);
    }
  }

  /** The stream carries the reasoning and the answer in full: the
      reasoning deltas join to `think`, the content deltas to `answer`. */
  lemma StreamCarriesTexts(id: string, created: int, model: string, think: string, answer: string)
    ensures Text(StreamFrames(id, created, model, think, answer), true) == think
    ensures Text(StreamFrames(id, created, model, think, answer), false) == answer
  {
    StreamText(id, created, model, think, answer, true);
    StreamText(id, created, model, think, answer, false);
  }

  lemma StreamText(id: string, created: int, model: string, think: string, answer: string, reasoning: bool)
    ensures Text(StreamFrames(id, created, model, think, answer), reasoning) == if reasoning then think else answer
  {
    var role := [Data(id, created, model, RoleDelta, None)];
    var rs := ReasoningFrames(id, created, model, think);
    var cs := ContentFrames(id, created, model, answer);
    var tail := [Data(id, created, model, EmptyDelta, Some("stop")), Done];
    TextAppend4(role, rs, cs, tail, reasoning);
    EndsCarryNothing(id, created, model, reasoning);
    ReasoningFramesText(id, created, model, think, reasoning);
    ContentFramesText(id, created, model, answer, reasoning);
  }

  lemma TextAppend4(a: seq<Frame>, b: seq<Frame>, c: seq<Frame>, d: seq<Frame>, reasoning: bool)
    ensures Text(a + b + c + d, reasoning)
      == Text(a, reasoning) + Text(b, reasoning) + Text(c, reasoning) + Text(d, reasoning)
  {
    TextAppend(a + b + c, d, reasoning);
    TextAppend(a + b, c, reasoning);
    TextAppend(a, b, reasoning);
  }

  /** The role frame and the closing frames carry no text. */
  lemma EndsCarryNothing(id: string, created: int, model: string, reasoning: bool)
    ensures Text([Data(id, created, model, RoleDelta, None)], reasoning) == ""
    ensures Text([Data(id, created, model, EmptyDelta, Some("stop")), Done], reasoning) == ""
  {
    var stop := Data(id, created, model, EmptyDelta, Some("stop"));
    TextSingle(Data(id, created, model, RoleDelta, None), reasoning);
    assert [stop, Done] == [stop] + [Done];
    TextAppend([stop], [Done], reasoning);
    TextSingle(stop, reasoning);
    TextSingle(Done, reasoning);
  }

  lemma ReasoningFramesText(id: string, created: int, model: string, think: string, reasoning: bool)
    ensures Text(ReasoningFrames(id, created, model, think), reasoning) == if reasoning then think else ""
  {
    if think != "" {
      PieceFramesCarry(id, created, model, Chunks(think, SLICE), true);
      ChunksCover(think, SLICE);
    }
  }

  lemma ContentFramesText(id: string, created: int, model: string, answer: string, reasoning: bool)
    ensures Text(ContentFrames(id, created, model, answer), reasoning) == if reasoning then "" else answer
  {
    PieceFramesCarry(id, created, model, Chunks(answer, SLICE), false);
    ChunksCover(answer, SLICE);
  }

  /** The stream is laid out as the role frame, the reasoning frames, the
      content frames, the stop frame and [DONE]. */
  lemma StreamLayout(id: string, created: int, model: string, think: string, answer: string)
    ensures StreamFrames(id, created, model, think, answer)
      == [Data(id, created, model, RoleDelta, None)]
      + ReasoningFrames(id, created, model, think) + ContentFrames(id, created, model, answer)
      + [Data(id, created, model, EmptyDelta, Some("stop")), Done]
  {
  }

  /** One frame per slice: the stream has 3 + ceil(|think| / 400) +
      ceil(|answer| / 400) frames, the role frame first and the stop frame
      and [DONE] last. */
  lemma StreamCount(id: string, created: int, model: string, think: string, answer: string)
    ensures var fs := StreamFrames(id, created, model, think, answer);
      && |fs| == 3 + |Chunks(think, SLICE)| + |Chunks(answer, SLICE)|
      && fs[0] == Data(id, created, model, RoleDelta, None)
      && fs[|fs| - 2] == Data(id, created, model, EmptyDelta, Some("stop"))
      && fs[|fs| - 1] == Done
  {
    ChunksCover(think, SLICE);
    ChunksCover(answer, SLICE);
    PieceFramesCount(id, created, model, Chunks(think, SLICE), true);
    PieceFramesCount(id, created, model, Chunks(answer, SLICE), false);
  }

  /** Every frame but [DONE] is a data frame of this reply, with the same id,
      created time and model; only the stop frame has a finish reason. */
  lemma StreamSameReply(id: string, created: int, model: string, think: string, answer: string)
    ensures var fs := StreamFrames(id, created, model, think, answer);
      && (forall k :: 0 <= k < |fs| - 1 ==>
            fs[k].Data? && fs[k].id == id && fs[k].created == created && fs[k].model == model)
      && (forall k :: 0 <= k < |fs| - 2 ==> fs[k].Data? && fs[k].finishReason.None?)
  {
    var rs := ReasoningFrames(id, created, model, think);
    var cs := ContentFrames(id, created, model, answer);
    var fs := StreamFrames(id, created, model, think, answer);
    var tail := [Data(id, created, model, EmptyDelta, Some("stop")), Done];
    StreamLayout(id, created, model, think, answer);
    PieceFramesShape(id, created, model, Chunks(think, SLICE), true);
    PieceFramesShape(id, created, model, Chunks(answer, SLICE), false);
    forall k | 0 <= k < |fs| - 1
      ensures fs[k].Data? && fs[k].id == id && fs[k].created == created && fs[k].model == model
      ensures k < |fs| - 2 ==> fs[k].finishReason.None?
    {
      if k == 0 {
      } else if k < 1 + |rs| {
        assert fs[k] == rs[k - 1];
        assert rs[k - 1] in rs;
      } else if k < 1 + |rs| + |cs| {
        assert fs[k] == cs[k - 1 - |rs|];
        assert cs[k - 1 - |rs|] in cs;
      } else {
        assert fs[k] == tail[k - 1 - |rs| - |cs|];
      }
    }
  }

  /** Where a frame of the stream comes from, by its delta: reasoning deltas
      only from the reasoning frames, content deltas only from the content
      frames. */
  lemma StreamOrder(id: string, created: int, model: string, think: string, answer: string)
    ensures var fs := StreamFrames(id, created, model, think, answer);
      forall i, j :: 0 <= i < |fs| && 0 <= j < |fs| ==>
        (fs[i].Data? && fs[i].delta.ContentDelta? && fs[j].Data? && fs[j].delta.ReasoningDelta? ==> j < i)
  {
    var rs := ReasoningFrames(id, created, model, think);
    var cs := ContentFrames(id, created, model, answer);
    var fs := StreamFrames(id, created, model, think, answer);
    var tail := [Data(id, created, model, EmptyDelta, Some("stop")), Done];
    StreamLayout(id, created, model, think, answer);
    PieceFramesShape(id, created, model, Chunks(think, SLICE), true);
    PieceFramesShape(id, created, model, Chunks(answer, SLICE), false);
    forall k | 1 + |rs| <= k < |fs|
      ensures !(fs[k].Data? && fs[k].delta.ReasoningDelta?)
    {
      if k < 1 + |rs| + |cs| {
        assert fs[k] == cs[k - 1 - |rs|];
        assert cs[k - 1 - |rs|] in cs;
      } else {
        assert fs[k] == tail[k - 1 - |rs| - |cs|];
      }
    }
    forall k | 0 < k < 1 + |rs|
      ensures !(fs[k].Data? && fs[k].delta.ContentDelta?)
    {
      assert fs[k] == rs[k - 1];
      assert rs[k - 1] in rs;
    }
  }

  /** Every delta of the stream carries at most one slice: non-empty text of
      at most 400 characters. */
  lemma SlicesAreBounded(id: string, created: int, model: string, think: string, answer: string)
    ensures forall f :: f in StreamFrames(id, created, model, think, answer) ==>
      (f.Data? && (f.delta.ReasoningDelta? || f.delta.ContentDelta?) ==> 0 < |f.delta.piece| <= SLICE)
  {
    var fs := StreamFrames(id, created, model, think, answer);
    var rs := ReasoningFrames(id, created, model, think);
    var cs := ContentFrames(id, created, model, answer);
    assert fs == [Data(id, created, model, RoleDelta, None)] + rs + cs
      + [Data(id, created, model, EmptyDelta, Some("stop")), Done];
    ChunksCover(think, SLICE);
    ChunksCover(answer, SLICE);
    PieceFramesShape(id, created, model, Chunks(think, SLICE), true);
    PieceFramesShape(id, created, model, Chunks(answer, SLICE), false);
  }
}

=== FILE: tags.dfy ===
/** The tag splitter: separates the reasoning held in the first
    <think>...</think> block of an upstream reply from the answer held in the
    first <answer>...</answer> block, with the fallbacks worker.js applies
    when a block is missing. */
module Tags {
  import opened Js

  const THINK_OPEN := "<think>"
  const THINK_CLOSE := "</think>"
  const ANSWER_OPEN := "<answer>"
  const ANSWER_CLOSE := "</answer>"

  /** The tag occurs in `s` at position `i`, ignoring ASCII case: the `i`
      flag of a regular expression without the `u` flag folds only ASCII
      letters onto ASCII letters. */
  predicate TagAt(s: string, tag: string, i: nat) {
    i + |tag| <= |s| && Lower(s[i..i + |tag|]) == Lower(tag)
  }

  /** The pattern  open([\s\S]*?)close  matches `s` starting at `i` with its
      captured text ending at `j`. */
  ghost predicate Encloses(s: string, open: string, close: string, i: nat, j: nat) {
    TagAt(s, open, i) && i + |open| <= j && TagAt(s, close, j)
  }

  /** The pattern matches nowhere in `s`. */
  ghost predicate NoMatch(s: string, open: string, close: string) {
    forall i: nat, j: nat :: !Encloses(s, open, close, i, j)
  }

  /** (i, j) is the match String.prototype.match reports for the pattern:
      the leftmost starting position, and there the shortest capture, as the
      lazy quantifier asks. */
  ghost predicate IsFirstMatch(s: string, open: string, close: string, i: nat, j: nat) {
    && Encloses(s, open, close, i, j)
    && (forall i': nat, j': nat :: i' < i ==> !Encloses(s, open, close, i', j'))
    && (forall j': nat :: j' < j ==> !Encloses(s, open, close, i, j'))
  }

  /** A successful match: `index` and `length` of the whole match (m.index
      and m[0].length) and the captured text (m[1]). */
  datatype TagMatch = TagMatch(index: nat, inner: string, length: nat)

  /** The first position at or after `from` where `tag` occurs. */
  function FindFrom(s: string, tag: string, from: nat): (r: Option<nat>)
    ensures r.Some? ==> from <= r.value && TagAt(s, tag, r.value)
    ensures r.Some? ==> forall k: nat :: from <= k < r.value ==> !TagAt(s, tag, k)
    ensures r.None? ==> forall k: nat :: from <= k ==> !TagAt(s, tag, k)
    decreases |s| - from
  {
    if from + |tag| > |s| then None
    else if TagAt(s, tag, from) then Some(from)
    else FindFrom(s, tag, from + 1)
  }

  /** `s.match(/open([\s\S]*?)close/i)`: the first opener that some closer
      follows, paired with the nearest closer after it. Since every later
      opener sees only closers the first one also sees, taking the first
      opener and failing when no closer follows it is exact. */
  function FirstMatch(s: string, open: string, close: string): (r: Option<TagMatch>)
    ensures r.Some? ==>
      && |open| + |close| <= r.value.length
      && r.value.index + r.value.length <= |s|
      && r.value.inner == s[r.value.index + |open| .. r.value.index + r.value.length - |close|]
  {
    match FindFrom(s, open, 0)
    case None => None
    case Some(i) =>
      match FindFrom(s, close, i + |open|)
      case None => None
      case Some(j) => Some(TagMatch(i, s[i + |open|..j], j + |close| - i))
  }

  /** FirstMatch finds exactly the match the regular expression reports:
      none when the pattern matches nowhere, else the leftmost-shortest one. */
  lemma FirstMatchCorrect(s: string, open: string, close: string)
    ensures FirstMatch(s, open, close).None? <==> NoMatch(s, open, close)
    ensures FirstMatch(s, open, close).Some? ==>
      var m := FirstMatch(s, open, close).value;
      IsFirstMatch(s, open, close, m.index, m.index + m.length - |close|)
  {
    match FindFrom(s, open, 0)
    case None =>
      NoOpenerNoMatch(s, open, close);
    case Some(i) =>
      match FindFrom(s, close, i + |open|)
      case None =>
        NoCloserNoMatch(s, open, close, i);
      case Some(j) =>
        FoundIsFirst(s, open, close, i, j);
        FirstMatchOfFinds(s, open, close, i, j);
  }

  lemma NoOpenerNoMatch(s: string, open: string, close: string)
    requires FindFrom(s, open, 0).None?
    ensures NoMatch(s, open, close)
  {
  }

  /** Every later opener sees only closers the first one sees. */
  lemma NoCloserNoMatch(s: string, open: string, close: string, i: nat)
    requires FindFrom(s, open, 0) == Some(i)
    requires FindFrom(s, close, i + |open|).None?
    ensures NoMatch(s, open, close)
  {
    forall i': nat, j': nat ensures !Encloses(s, open, close, i', j') {
      if TagAt(s, open, i') {
        assert i <= i';
      }
    }
  }

  lemma FoundIsFirst(s: string, open: string, close: string, i: nat, j: nat)
    requires FindFrom(s, open, 0) == Some(i)
    requires FindFrom(s, close, i + |open|) == Some(j)
    ensures IsFirstMatch(s, open, close, i, j) && !NoMatch(s, open, close)
  {
    assert Encloses(s, open, close, i, j);
  }

  /** Only one pair of positions is the first match. */
  lemma FirstMatchUnique(s: string, open: string, close: string, i: nat, j: nat, i2: nat, j2: nat)
    requires IsFirstMatch(s, open, close, i, j)
    requires IsFirstMatch(s, open, close, i2, j2)
    ensures i == i2 && j == j2
  {
  }

  /** The first match, as a value: the match object reports exactly the
      first match's position, capture and length. */
  lemma FirstMatchIs(s: string, open: string, close: string, i: nat, j: nat)
    requires IsFirstMatch(s, open, close, i, j)
    ensures j + |close| <= |s|
    ensures FirstMatch(s, open, close) == Some(TagMatch(i, s[i + |open|..j], j + |close| - i))
  {
    FirstMatchFinds(s, open, close, i, j);
    FirstMatchOfFinds(s, open, close, i, j);
  }

  /** The searches for the opener and the closer stop at the first match. */
  lemma FirstMatchFinds(s: string, open: string, close: string, i: nat, j: nat)
    requires IsFirstMatch(s, open, close, i, j)
    ensures FindFrom(s, open, 0) == Some(i) && FindFrom(s, close, i + |open|) == Some(j)
  {
    var fo := FindFrom(s, open, 0);
    if fo.Some? && fo.value < i {
      assert Encloses(s, open, close, fo.value, j);
    }
    var fc := FindFrom(s, close, i + |open|);
    if fc.Some? && fc.value < j {
      assert Encloses(s, open, close, i, fc.value);
    }
  }

  lemma FirstMatchOfFinds(s: string, open: string, close: string, i: nat, j: nat)
    requires FindFrom(s, open, 0) == Some(i) && FindFrom(s, close, i + |open|) == Some(j)
    ensures j + |close| <= |s|
    ensures FirstMatch(s, open, close) == Some(TagMatch(i, s[i + |open|..j], j + |close| - i))
  {
    var r := FirstMatch(s, open, close);
    assert r.Some? && r.value.index == i && r.value.length == j + |close| - i;
    var e := r.value.index + r.value.length - |close|;
    assert e == j;
    assert r.value.inner == s[i + |open|..e];
    assert r.value == TagMatch(i, s[i + |open|..j], j + |close| - i);
  }

  /** The pieces of a list that are non-empty strings (`filter(Boolean)`). */
  function NonEmpty(parts: seq<string>): (r: seq<string>)
    ensures forall k :: 0 <= k < |r| ==> r[k] != ""
  {
    if parts == [] then []
    else (if parts[0] == "" then [] else [parts[0]]) + NonEmpty(parts[1..])
  }

  /** The result of splitThinkAnswer. */
  datatype Parts = Parts(think: string, answer: string, hasTags: bool, raw: string)

  /** The text before position `k` (`s.slice(0, k)`, clamped as slice does). */
  function SliceTo(s: string, k: nat): string {
    if k <= |s| then s[..k] else s
  }

  /** The text from position `k` on (`s.slice(k)`, clamped as slice does). */
  function SliceFrom(s: string, k: nat): string {
    if k <= |s| then s[k..] else ""
  }

  /** The reasoning: the trimmed capture of the think block, if any. */
  function ThinkOf(thinkM: Option<TagMatch>): string {
    if thinkM.Some? then Trim(thinkM.value.inner) else ""
  }

  /** The answer: the trimmed capture of the answer block if there is one;
      else the trimmed text around the think block; else the trimmed text. */
  function AnswerOf(src: string, thinkM: Option<TagMatch>, ansM: Option<TagMatch>): string {
    if ansM.Some? then Trim(ansM.value.inner)
    else if thinkM.Some? then
      Salvage(Trim(SliceTo(src, thinkM.value.index)),
              Trim(SliceFrom(src, thinkM.value.index + thinkM.value.length)))
    else Trim(src)
  }

  /** `[before, after].filter(Boolean).join('\n').trim()` */
  function Salvage(before: string, after: string): string {
    Trim(Join(NonEmpty([before, after]), "\n"))
  }

  /** splitThinkAnswer on the string form of the upstream content. */
  function SplitThinkAnswer(src: string): (r: Parts)
    ensures r.raw == src
  {
    var thinkM := FirstMatch(src, THINK_OPEN, THINK_CLOSE);
    var ansM := FirstMatch(src, ANSWER_OPEN, ANSWER_CLOSE);
    Parts(ThinkOf(thinkM), AnswerOf(src, thinkM, ansM), thinkM.Some? || ansM.Some?, src)
  }

  /** The answer text salvaged around a think block: the two trimmed sides
      joined by one newline, a side that is empty left out. */
  function JoinSides(before: string, after: string): string {
    if before == "" then after
    else if after == "" then before
    else before + "\n" + after
  }

  /** Joining two trimmed sides with a newline leaves nothing for the final
      trim to remove. */
  lemma {:induction false} SalvageIsTrimmed(before: string, after: string)
    requires Trimmed(before) && Trimmed(after)
    ensures Join(NonEmpty([before, after]), "\n") == JoinSides(before, after)
    ensures Trimmed(JoinSides(before, after))
    ensures Salvage(before, after) == JoinSides(before, after)
  {
    var parts := [before, after];
    assert parts[1..] == [after];
    assert NonEmpty([after]) == (if after == "" then [] else [after]) by {
      assert [after][1..] == [];
    }
    if before != "" && after != "" {
      assert NonEmpty(parts) == [before, after];
      assert [before, after][1..] == [after];
    }
    var joined := JoinSides(before, after);
    if before != "" && after != "" {
      assert joined[0] == before[0];
      assert joined[|joined| - 1] == after[|after| - 1];
    }
    TrimIdentity(joined);
  }

  /** With an answer block present, the answer is the trimmed capture of the
      first answer block, whatever surrounds it. */
  lemma AnswerBlockWins(src: string, i: nat, j: nat)
    requires IsFirstMatch(src, ANSWER_OPEN, ANSWER_CLOSE, i, j)
    ensures i + |ANSWER_OPEN| <= j <= |src|
    ensures SplitThinkAnswer(src).answer == Trim(src[i + |ANSWER_OPEN|..j])
    ensures SplitThinkAnswer(src).hasTags
  {
    FirstMatchIs(src, ANSWER_OPEN, ANSWER_CLOSE, i, j);
    var m := FirstMatch(src, ANSWER_OPEN, ANSWER_CLOSE);
  }

  /** The reasoning is the trimmed capture of the first think block. */
  lemma ThinkIsFirstBlock(src: string, i: nat, j: nat)
    requires IsFirstMatch(src, THINK_OPEN, THINK_CLOSE, i, j)
    ensures i + |THINK_OPEN| <= j <= |src|
    ensures SplitThinkAnswer(src).think == Trim(src[i + |THINK_OPEN|..j])
    ensures SplitThinkAnswer(src).hasTags
  {
    FirstMatchIs(src, THINK_OPEN, THINK_CLOSE, i, j);
    var m := FirstMatch(src, THINK_OPEN, THINK_CLOSE);
  }

  /** Without a think block the reasoning is empty. */
  lemma NoThinkBlock(src: string)
    requires NoMatch(src, THINK_OPEN, THINK_CLOSE)
    ensures SplitThinkAnswer(src).think == ""
  {
    FirstMatchCorrect(src, THINK_OPEN, THINK_CLOSE);
  }

  /** A think block without an answer block: the text before and after the
      think block, each trimmed, becomes the answer, joined by a newline. */
  lemma ThinkOnlySalvages(src: string, i: nat, j: nat)
    requires IsFirstMatch(src, THINK_OPEN, THINK_CLOSE, i, j)
    requires NoMatch(src, ANSWER_OPEN, ANSWER_CLOSE)
    ensures j + |THINK_CLOSE| <= |src|
    ensures SplitThinkAnswer(src).answer == JoinSides(Trim(src[..i]), Trim(src[j + |THINK_CLOSE|..]))
    ensures SplitThinkAnswer(src).think == Trim(src[i + |THINK_OPEN|..j])
  {
    FirstMatchIs(src, THINK_OPEN, THINK_CLOSE, i, j);
    var m := FirstMatch(src, THINK_OPEN, THINK_CLOSE);
    var a := FirstMatch(src, ANSWER_OPEN, ANSWER_CLOSE);
    FirstMatchCorrect(src, ANSWER_OPEN, ANSWER_CLOSE);
    var before, after := Trim(src[..i]), Trim(src[j + |THINK_CLOSE|..]);
    assert SliceTo(src, m.value.index) == src[..i];
    assert SliceFrom(src, m.value.index + m.value.length) == src[j + |THINK_CLOSE|..];
    SalvageIsTrimmed(before, after);
    assert AnswerOf(src, m, a) == Salvage(before, after);
    ThinkIsFirstBlock(src, i, j);
  }

  /** Without either block nothing is split off: the answer is the whole
      trimmed text. */
  lemma NoTagsKeepsText(src: string)
    requires NoMatch(src, THINK_OPEN, THINK_CLOSE)
    requires NoMatch(src, ANSWER_OPEN, ANSWER_CLOSE)
    ensures SplitThinkAnswer(src) == Parts("", Trim(src), false, src)
  {
    FirstMatchCorrect(src, THINK_OPEN, THINK_CLOSE);
    FirstMatchCorrect(src, ANSWER_OPEN, ANSWER_CLOSE);
  }

  /** hasTags is set exactly when at least one of the two patterns matches. */
  lemma HasTagsIff(src: string)
    ensures SplitThinkAnswer(src).hasTags <==>
      !NoMatch(src, THINK_OPEN, THINK_CLOSE) || !NoMatch(src, ANSWER_OPEN, ANSWER_CLOSE)
  {
    FirstMatchCorrect(src, THINK_OPEN, THINK_CLOSE);
    FirstMatchCorrect(src, ANSWER_OPEN, ANSWER_CLOSE);
  }

  /** No character of `s` is '<'. */
  predicate NoBracket(s: string) {
    forall k :: 0 <= k < |s| ==> s[k] != '<'
  }

  /** No tag whose second character is `c` starts at position `k` of `s`:
      there is no '<' there, or what follows it folds to something else. */
  predicate NotTagStart(s: string, k: nat, c: char) {
    k < |s| && (s[k] != '<' || (k + 1 < |s| && LowerChar(s[k + 1]) != LowerChar(c)))
  }

  /** A tag that starts with '<' can only occur where `s` has a '<', and
      there the next character folds to the tag's second character. */
  lemma TagAtBracket(s: string, tag: string, k: nat)
    requires TagAt(s, tag, k) && |tag| >= 2 && tag[0] == '<'
    ensures s[k] == '<' && LowerChar(s[k + 1]) == LowerChar(tag[1])
  {
    LowerAt(s[k..k + |tag|], 0);
    LowerAt(s[k..k + |tag|], 1);
    LowerAt(tag, 0);
    LowerAt(tag, 1);
  }

  /** Locating a match from where the '<' characters are: no opener can
      start before `i`, and no closer between the opener and `j`. */
  lemma FirstMatchByBrackets(s: string, open: string, close: string, i: nat, j: nat)
    requires |open| >= 2 && |close| >= 2 && open[0] == '<' && close[0] == '<'
    requires Encloses(s, open, close, i, j)
    requires forall k :: 0 <= k < i ==> NotTagStart(s, k, open[1])
    requires forall k :: i + |open| <= k < j ==> s[k] != '<'
    ensures IsFirstMatch(s, open, close, i, j)
  {
    forall i': nat, j': nat | i' < i || (i' == i && j' < j)
      ensures !Encloses(s, open, close, i', j')
    {
      if i' < i {
        assert NotTagStart(s, i', open[1]);
      }
      if TagAt(s, open, i') {
        TagAtBracket(s, open, i');
      }
      if TagAt(s, close, j') {
        TagAtBracket(s, close, j');
      }
    }
  }

  /** A reply of the shape  pre <think>R</think> mid <answer>A</answer> post,
      with no '<' in pre, R, mid and A, splits into the trimmed R as the
      reasoning and the trimmed A as the answer; pre, mid and post are
      dropped. */
  lemma {:induction false} WellFormedReply(pre: string, r: string, mid: string, a: string, post: string)
    requires NoBracket(pre) && NoBracket(r) && NoBracket(mid) && NoBracket(a)
    ensures var src := pre + THINK_OPEN + r + THINK_CLOSE + mid + ANSWER_OPEN + a + ANSWER_CLOSE + post;
      SplitThinkAnswer(src) == Parts(Trim(r), Trim(a), true, src)
  {
    var src, tm, am := ReplyMatches(pre, r, mid, a, post);
    SplitOfBothBlocks(src, tm, am);
  }

  /** The two blocks of a well-formed reply are its first matches. */
  lemma {:induction false} ReplyMatches(pre: string, r: string, mid: string, a: string, post: string)
    returns (src: string, tm: TagMatch, am: TagMatch)
    requires NoBracket(pre) && NoBracket(r) && NoBracket(mid) && NoBracket(a)
    ensures src == pre + THINK_OPEN + r + THINK_CLOSE + mid + ANSWER_OPEN + a + ANSWER_CLOSE + post
    ensures FirstMatch(src, THINK_OPEN, THINK_CLOSE) == Some(tm) && tm.inner == r
    ensures FirstMatch(src, ANSWER_OPEN, ANSWER_CLOSE) == Some(am) && am.inner == a
  {
    src := pre + THINK_OPEN + r + THINK_CLOSE + mid + ANSWER_OPEN + a + ANSWER_CLOSE + post;
    tm := ReplyThinkMatch(pre, r, mid, a, post);
    am := ReplyAnswerMatch(pre, r, mid, a, post);
  }

  /** The reasoning block of a well-formed reply is the first think match. */
  lemma {:induction false} ReplyThinkMatch(pre: string, r: string, mid: string, a: string, post: string)
    returns (tm: TagMatch)
    requires NoBracket(pre) && NoBracket(r)
    ensures FirstMatch(pre + THINK_OPEN + r + THINK_CLOSE + mid + ANSWER_OPEN + a + ANSWER_CLOSE + post,
                       THINK_OPEN, THINK_CLOSE) == Some(tm)
    ensures tm.inner == r
  {
    var z := mid + ANSWER_OPEN + a + ANSWER_CLOSE + post;
    forall k | 0 <= k < |pre| ensures NotTagStart(pre, k, THINK_OPEN[1]) {
      assert pre[k] != '<';
    }
    BlockIsFirstMatch(pre, THINK_OPEN, r, THINK_CLOSE, z);
    ReplyThinkRegroup(pre + THINK_OPEN + r + THINK_CLOSE, mid, ANSWER_OPEN, a, ANSWER_CLOSE, post);
    tm := TagMatch(|pre|, r, |THINK_OPEN| + |r| + |THINK_CLOSE|);
  }

  /** The answer block of a well-formed reply is the first answer match. */
  lemma {:induction false} ReplyAnswerMatch(pre: string, r: string, mid: string, a: string, post: string)
    returns (am: TagMatch)
    requires NoBracket(pre) && NoBracket(r) && NoBracket(mid) && NoBracket(a)
    ensures FirstMatch(pre + THINK_OPEN + r + THINK_CLOSE + mid + ANSWER_OPEN + a + ANSWER_CLOSE + post,
                       ANSWER_OPEN, ANSWER_CLOSE) == Some(am)
    ensures am.inner == a
  {
    var x := pre + THINK_OPEN + r + THINK_CLOSE + mid;
    ThinkSideHasNoAnswerTag(pre, r, mid);
    BlockIsFirstMatch(x, ANSWER_OPEN, a, ANSWER_CLOSE, post);
    am := TagMatch(|x|, a, |ANSWER_OPEN| + |a| + |ANSWER_CLOSE|);
  }

  /** Regrouping the tail of a concatenation, kept apart from the facts
      about FirstMatch. */
  lemma ReplyThinkRegroup(h: string, s1: string, s2: string, s3: string, s4: string, s5: string)
    ensures h + s1 + s2 + s3 + s4 + s5 == h + (s1 + s2 + s3 + s4 + s5)
  {
  }

  /** In the text before the answer block no answer opener can start: its
      only '<' are those of the reasoning tags. */
  lemma {:induction false} ThinkSideHasNoAnswerTag(pre: string, r: string, mid: string)
    requires NoBracket(pre) && NoBracket(r) && NoBracket(mid)
    ensures var x := pre + THINK_OPEN + r + THINK_CLOSE + mid;
      forall k :: 0 <= k < |x| ==> NotTagStart(x, k, ANSWER_OPEN[1])
  {
    var x := pre + THINK_OPEN + r + THINK_CLOSE + mid;
    var t0 := |pre|;
    var t1 := t0 + |THINK_OPEN| + |r|;
    forall k | 0 <= k < |x| ensures NotTagStart(x, k, ANSWER_OPEN[1]) {
      if k < t0 {
        assert x[k] == pre[k];
      } else if k == t0 {
        assert x[k + 1] == 't';
      } else if k < t0 + 7 {
        assert x[k] == THINK_OPEN[k - t0];
      } else if k < t1 {
        assert x[k] == r[k - t0 - 7];
      } else if k == t1 {
        assert x[k + 1] == '/';
      } else if k < t1 + 8 {
        assert x[k] == THINK_CLOSE[k - t1];
      } else {
        assert x[k] == mid[k - t1 - 8];
      }
    }
  }

  /** A block  x open y close z  is the first match when no opener can start
      inside x and y has no '<'. */
  lemma {:induction false} BlockIsFirstMatch(x: string, open: string, y: string, close: string, z: string)
    requires |open| >= 2 && |close| >= 2 && open[0] == '<' && close[0] == '<'
    requires forall k :: 0 <= k < |x| ==> NotTagStart(x, k, open[1])
    requires NoBracket(y)
    ensures FirstMatch(x + open + y + close + z, open, close)
      == Some(TagMatch(|x|, y, |open| + |y| + |close|))
  {
    var s := x + open + y + close + z;
    var i := |x|;
    var j := |x| + |open| + |y|;
    BlockIsFirst(x, open, y, close, z);
    FirstMatchIs(s, open, close, i, j);
    assert TagMatch(i, s[i + |open|..j], j + |close| - i) == TagMatch(|x|, y, |open| + |y| + |close|) by {
      BlockInS(x, open, y, close, z);
    }
  }

  /** The block's positions are the first match. */
  lemma BlockIsFirst(x: string, open: string, y: string, close: string, z: string)
    requires |open| >= 2 && |close| >= 2 && open[0] == '<' && close[0] == '<'
    requires forall k :: 0 <= k < |x| ==> NotTagStart(x, k, open[1])
    requires NoBracket(y)
    ensures IsFirstMatch(x + open + y + close + z, open, close, |x|, |x| + |open| + |y|)
  {
    var t := open + y + close + z;
    var s := x + open + y + close + z;
    BlockInS(x, open, y, close, z);
    assert s == x + t;
    NoTagStartBefore(x, t, open[1]);
    FirstMatchByBrackets(s, open, close, |x|, |x| + |open| + |y|);
  }

  /** Where the parts of  x open y close z  sit in the whole. */
  lemma BlockInS(x: string, open: string, y: string, close: string, z: string)
    requires NoBracket(y)
    ensures var s := x + open + y + close + z;
      var i := |x|;
      var j := |x| + |open| + |y|;
      && s[i..i + |open|] == open && s[i + |open|..j] == y && s[j..j + |close|] == close
      && forall k :: i + |open| <= k < j ==> s[k] != '<'
  {
    var s := x + open + y + close + z;
    var i := |x|;
    var j := |x| + |open| + |y|;
    assert s[i..i + |open|] == open;
    assert s[i + |open|..j] == y;
    assert s[j..j + |close|] == close;
    forall k | i + |open| <= k < j ensures s[k] != '<' {
      assert s[k] == y[k - i - |open|];
    }
  }

  /** No opener starts inside x in x + t when none starts inside x alone
      and t begins with '<'. */
  lemma NoTagStartBefore(x: string, t: string, c: char)
    requires t != [] && t[0] == '<'
    requires forall k :: 0 <= k < |x| ==> NotTagStart(x, k, c)
    ensures forall k :: 0 <= k < |x| ==> NotTagStart(x + t, k, c)
  {
    var s := x + t;
    forall k | 0 <= k < |x| ensures NotTagStart(s, k, c) {
      assert s[k] == x[k];
      assert NotTagStart(x, k, c);
      if k + 1 < |x| {
        assert s[k + 1] == x[k + 1];
      } else {
        assert s[k + 1] == t[0];
      }
    }
  }

  /** When both blocks match, the split is their trimmed captures. */
  lemma SplitOfBothBlocks(src: string, tm: TagMatch, am: TagMatch)
    requires FirstMatch(src, THINK_OPEN, THINK_CLOSE) == Some(tm)
    requires FirstMatch(src, ANSWER_OPEN, ANSWER_CLOSE) == Some(am)
    ensures SplitThinkAnswer(src) == Parts(Trim(tm.inner), Trim(am.inner), true, src)
  {
  }
}
